=== FILE: README.md ===
# library-fastapi in Dafny

A model of the core of library-fastapi, a small HTTP service over a library
database of publishers, authors and books. Authors and books are linked
many-to-many through an association table. Each book may name one publisher.
The model covers:

- **Tables** (`models.dfy`). The three entity tables are maps from id to record, each with its own id sequence. The association table is a sequence of (book, author) pairs. The column declarations are there too, along with `WellFormed`, the invariant the database's constraints keep: records stored under their own ids, no dangling foreign key, and no pair linked twice. The foreign key holds because the database refuses, at commit, a book whose `publisher_id` names no publisher; `Views.CreateBook` and `Views.UpdateBook` model that refusal.
- **Request and response schemas** (`schemas.dfy`):
  - parsing of the query-string bodies of `PublisherCreate`/`Patch`, `AuthorCreate`/`Patch` and `BookCreate`, including pydantic's "field required" and "value is not a valid integer" errors;
  - the response models `Book` (no `publisher_id`), `Book_Authors` (at least one author, no duplicates), `Book_All`, `Author_Books` and `Publisher_Books` (duplicate-free lists, empty by default).
- **Filters** (`filters.dfy`):
  - `check_fields` and the three `restrict_sortable_fields` validators. A sort entry is refused when, with every `+` and `-` deleted, it names the entity's relationship (`books` for authors and publishers, `authors` for books).
  - The whitelist of filter keys each entity accepts, and its agreement with the column types. A list request reads from the query string only the whitelisted keys, each decoded to its column's type; other keys are ignored.
- **Dependencies** (`dependencies.dfy`):
  - `raise_404` and `raise_404_list`, whose bodies carry the table name and the id list;
  - the filter wrapper. It re-validates the filter and turns a failure into a 422 whose error locations are prefixed with `query`. Its `filter` and `sort` calls build the list query.
- **Routers** (`crud.dfy`, `publishers.dfy`, `authors.dfy`, `books.dfy`):
  - read, create, update (PUT), patch and delete for publishers and authors;
  - read, create and update for books.

  Each is a function from the table to the new table and the response. A PUT writes every field of the create schema, so an omitted optional field becomes None. A PATCH writes only the fields it is given.
- **Views** (`views.dfy`):
  - the read and delete responses with their related records loaded;
  - the library-level facts that connect the routers to the table invariants.

  On a well-formed library an author or publisher is always shown. A book is shown exactly when it has an author and a publisher. A book created through `POST /books/` has no author, so reading it back as `Book_All` fails validation.

Integers are unbounded. Query values are parsed by a simplified integer syntax (`Text.ParseInt`). The database's id sequences are the `next` field of each table.

## Model

| member | source | states |
|---|---|---|
| Text.Remove | app/db/filters.py:15 | `str.replace(c, "")`: the result never contains `c` and is no longer than the input |
| Text.RemoveOnlyDeletes | app/db/filters.py:15 | every character left by the replacement was in the input and differs from the removed one |
| Filters.StripSigns | app/db/filters.py:15 | the stripped sort entry contains neither `+` nor `-` |
| Filters.StripSignsConcat | app/db/filters.py:15 | stripping signs distributes over concatenation |
| Filters.SignAnywhereIgnored | app/db/filters.py:15 | a sign inserted at any position, not only in front, is ignored by the comparison |
| Text.Join | app/db/filters.py:16 | `", ".join(...)`: empty for no parts; the first part opens the result |
| Text.JoinEndsWithLast | app/db/filters.py:16 | the last part closes the joined string |
| Filters.SortError | app/db/filters.py:16 | the message is "You can't sort by: " followed by the banned names; with one banned name, that name alone |
| Filters.CheckFields | app/db/filters.py:13-17 | succeeds exactly when no entry, stripped of signs, is banned; returns the entries unchanged; otherwise the message naming the whole banned list |
| Filters.SignedBannedNameRejected | app/db/filters.py:13-17 | a banned name with a sign inserted anywhere is still refused with the same message |
| Filters.SignedColumnAccepted | app/db/filters.py:13-17 | an allowed column with a leading `+` or `-` passes unchanged |
| Filters.BannedSortFields | app/db/filters.py:30-68 | each filter bans exactly one name |
| Filters.BannedNamesAreNotColumns | app/db/filters.py:32-68 | the banned name is a relationship, which no column of the entity's table bears |
| Filters.RestrictSortableFields | app/db/filters.py:30-32 | absent or empty `order_by` becomes None unchecked; otherwise refused exactly when a stripped entry is banned, and returned unchanged when not |
| Filters.BannedSortFieldsExactly | app/db/filters.py:30-68 | authors and publishers ban `books`, books ban `authors`, with the exact messages |
| Filters.AuthorSignedBooksRejected | app/db/filters.py:30-32 | `-books`, `+books` and `bo-oks` are refused with "You can't sort by: books" |
| Filters.AuthorNearMissesAccepted | app/db/filters.py:30-32 | the comparison is exact and case-sensitive: `Books` and `books ` pass |
| Filters.Whitelist | app/db/filters.py:20-64 | every entity declares at least one filter field |
| Filters.WhitelistShape | app/db/filters.py:20-64 | authors and publishers are filtered by `ilike` only; an integer column is offered with equality, `__lt` and `__gte` together |
| Filters.Keys | app/db/filters.py:20-25 | each filter field yields the query key `column` or `column__op`, position for position |
| Filters.AuthorKeys | app/db/filters.py:20-23 | the author filter accepts exactly the three `__ilike` name keys |
| Filters.BookKeys | app/db/filters.py:35-46 | the book filter accepts exactly the eleven declared keys, in order |
| Filters.PublisherKeys | app/db/filters.py:58-59 | the publisher filter accepts exactly `name__ilike` |
| Filters.AuthorFiltersMatchColumns | app/db/filters.py:20-28 | every author filter names an existing author column of matching type |
| Filters.BookFiltersMatchColumns | app/db/filters.py:35-51 | every book filter names an existing book column whose type fits the operator |
| Filters.WhitelistMatchesColumns | app/db/filters.py:20-64 | for every entity, every filter key names a column of the entity's model with a matching type |
| Dependencies.RaiseNotFound | app/dependencies.py:27-36 | a 404 with exactly one detail entry, no location and the message `No such <table>.` |
| Dependencies.NotFoundMessageNamesTable | app/dependencies.py:27-36 | the table can be read back out of the 404 message |
| Dependencies.NotFoundNamesTable | app/dependencies.py:27-36 | the error type `not_found.<table>` gives the table back |
| Dependencies.NotFoundInjective | app/dependencies.py:27-36 | different tables give different 404 bodies |
| Dependencies.RaiseNotFoundList | app/dependencies.py:40-49 | a 404 with one detail entry, of the same error type as the single-record 404 |
| Dependencies.NotFoundListRoundTrip | app/dependencies.py:40-49 | the message carries exactly the given ids, in order, rendered as a Python list |
| Dependencies.NotFoundListEmpty | app/dependencies.py:40-49 | an empty id list renders as `[]` |
| Text.IntToString | app/dependencies.py:45 | `str(i)`: one or more digits with no leading zero, preceded by `-` exactly when `i` is negative |
| Text.RenderIntList | app/dependencies.py:45 | `str(ids)`: `[]` exactly for the empty list, otherwise each id as `str` renders it, joined by `, ` inside brackets |
| Text.IntListRoundTrip | app/dependencies.py:45 | parsing back a rendered Python list of integers gives the list |
| Text.IntToStringRoundTrip | app/dependencies.py:45 | `str(n)` of any integer parses back to `n` |
| Text.NatToStringRoundTrip | app/dependencies.py:45 | the decimal digits of a natural number read back as that number |
| Dependencies.Relocate | app/dependencies.py:75-76 | `"query"` is put in front of every error's location; message, type and order are kept |
| Dependencies.RelocateRoundTrip | app/dependencies.py:75-76 | the original errors can be recovered from the relocated ones |
| Dependencies.RelocateConcat | app/dependencies.py:75-76 | relocation distributes over concatenation |
| Dependencies.Validate | app/dependencies.py:72-76 | re-validation fails exactly when `restrict_sortable_fields` does, with one `value_error` at `order_by` |
| Dependencies.Unprocessable | app/dependencies.py:77-80 | a 422 whose detail gives back the validation errors once `query` is removed |
| Dependencies.Filter | app/dependencies.py:71-81 | on success the filter's conditions are added to the query; on failure a 422 and nothing is added |
| Dependencies.Sort | app/dependencies.py:83-93 | on success the ordering is added to the query; on failure a 422 and nothing is added |
| Dependencies.FilterAndSortAgree | app/dependencies.py:70-93 | `filter` and `sort` fail on the same inputs with the same body |
| Dependencies.ListQueryRefusesBannedSort | app/routers/publishers.py:55-68 | once the filter values read, a list request is refused exactly when a stripped `order_by` entry is banned, with one 422 entry at `query.order_by` |
| Filters.FieldFor | app/db/filters.py:20-61 | the declared filter field behind a query key, found exactly when the key is whitelisted |
| Filters.Decode | app/db/filters.py:20-61 | an `ilike` value is taken as text; any other operator's value must parse as an integer, and is that integer |
| Dependencies.ReadFields | app/dependencies.py:65-68 | succeeds exactly when every whitelisted key given in the query decodes; the values hold exactly the whitelisted keys given, each decoded for its field |
| Dependencies.UnparsableErrors | app/dependencies.py:65-68 | one "not a valid integer" error per declared field whose value does not decode, in declaration order; empty exactly when every given value decodes |
| Dependencies.ReadFieldsErrorList | app/dependencies.py:65-68 | a failed read reports exactly that error list, in declaration order |
| Dependencies.ReadFieldsErrors | app/dependencies.py:65-68 | an error is reported exactly when it is "not a valid integer" for a whitelisted key whose value does not parse |
| Dependencies.Details | app/dependencies.py:77-80 | one detail entry per validation error, same location, message and type, in order |
| Dependencies.ListQuery | app/routers/publishers.py:55-68 | a list request: a 422 when a whitelisted value fails to parse; success needs `order_by` to pass validation and gives `sort(filter(select))`: the `WHERE` clause first, then the `ORDER BY` of the validated `order_by`, both carrying the decoded values |
| Dependencies.ListQueryUsesDeclaredKeys | app/routers/publishers.py:55-68 | the `WHERE` clause names only whitelisted keys given in the query, each with its decoded value, and every such key |
| Dependencies.AuthorListIgnoresYear | app/db/filters.py:20-23 | `year=1` on the author list is not a declared key, so it is dropped and the request succeeds |
| Models.RowsFitColumns | app/db/models.py:25-87 | every record's cells fit the declared column types, with NULL only in nullable columns |
| Models.NullableColumnsAdmitNull | app/db/models.py:44-77 | every column declared nullable really is one some record leaves NULL |
| Models.AuthorIdsOf | app/db/models.py:80-85 | `Book.authors`: an author is listed exactly when the pair is in the association table |
| Models.BookIdsOf | app/db/models.py:57-62 | `Author.books`: a book is listed exactly when the pair is in the association table |
| Models.TwoSidedRelation | app/db/models.py:17-22 | an author lists a book exactly when the book lists the author |
| Models.AuthorIdsUnique | app/db/models.py:17-22 | the composite primary key means a book lists each author once |
| Models.BookIdsUnique | app/db/models.py:17-22 | the composite primary key means an author lists each book once |
| Models.BookIdsOfPublisher | app/db/models.py:36-41 | the ids in a range whose book names the publisher, strictly ascending |
| Models.PublisherBooksExact | app/db/models.py:87-95 | `Publisher.books` lists exactly the books whose foreign key names the publisher, each once |
| Schemas.ParsePublisherCreate | app/db/schemas.py:24-29 | succeeds exactly when `name` is given; otherwise a single "field required" |
| Schemas.ParsePublisherPatch | app/db/schemas.py:32-33 | `name` is present exactly when given |
| Schemas.ParseAuthorCreate | app/db/schemas.py:48-55 | succeeds exactly when both names are given; `middle_name` defaults to None; each missing name is reported |
| Schemas.ParseAuthorPatch | app/db/schemas.py:58-61 | each name is present exactly when given |
| Text.ParseInt | app/db/schemas.py:78-85 | an integer is read exactly from an optional sign followed by one or more digits; the sign decides the result's sign |
| Text.ParseIntSignsAndZeros | app/db/schemas.py:78-85 | `+d` and `0d` read as `d`, and `-d` as its negation |
| Text.DigitsValueLeadingZero | app/db/schemas.py:78-85 | a leading zero does not change a digit string's value |
| Schemas.ParseBookCreate | app/db/schemas.py:76-85 | succeeds exactly when `title`, `year` and `publisher_id` are given and every integer field parses; optional fields default to None |
| Schemas.BookCreateErrors | app/db/schemas.py:76-85 | each missing required field is reported, and every location is in the query |
| Schemas.ToBookOut | app/db/schemas.py:88-90 | the response keeps every scalar book field and drops `publisher_id` |
| Schemas.CheckList | app/db/schemas.py:97 | a list passes exactly when long enough and, when required, duplicate-free; it is kept as is; a short list fails `min_items`, a long-enough one `unique_items` |
| Schemas.MakeBookAuthors | app/db/schemas.py:96-97 | `Book_Authors` accepts exactly a non-empty duplicate-free author list |
| Schemas.MakeAuthorBooks | app/db/schemas.py:108-109 | `Author_Books` accepts exactly a duplicate-free book list |
| Schemas.MakePublisherBooks | app/db/schemas.py:116-117 | `Publisher_Books` accepts exactly a duplicate-free book list |
| Schemas.MakeBookAll | app/db/schemas.py:100-105 | `Book_All` accepts exactly when there is a publisher and the authors pass; each failing field is reported |
| Schemas.EmptyBookListAccepted | app/db/schemas.py:108-117 | the default empty book list always passes |
| Schemas.BookWithoutAuthorsRejected | app/db/schemas.py:96-97 | a book with no authors fails `Book_Authors` with the `min_items` error |
| Crud.Get | app/routers/publishers.py:80-90 | found exactly when the id is in the table, else the table's 404 |
| Crud.Insert | app/routers/publishers.py:102-104 | the new record takes the sequence's next id, which was free, and the sequence advances |
| Crud.Modify | app/routers/publishers.py:117-128 | 404 and no change when absent; otherwise only that row is replaced and the keys are kept |
| Crud.Delete | app/routers/publishers.py:164-175 | the key is removed and the old row returned; 404 and no change when absent |
| Crud.GetAfterDelete | app/routers/publishers.py:164-175 | a deleted id reads as 404; other ids read as before |
| Crud.GetAfterInsert | app/routers/publishers.py:102-104 | the new id reads back the inserted row; ids in use read as before |
| Crud.ModifyIdempotent | app/routers/publishers.py:117-128 | writing the same idempotent change twice is writing it once |
| Crud.GetAfterModify | app/routers/publishers.py:117-128 | the modified id reads back the new row; other ids read as before |
| PublishersRouter.ReadPublisher | app/routers/publishers.py:80-90 | the stored publisher, or the publisher 404 exactly when absent |
| PublishersRouter.CreatePublisher | app/routers/publishers.py:102-104 | the new publisher holds the input name under a fresh id; rows stay keyed by id |
| PublishersRouter.UpdatePublisher | app/routers/publishers.py:117-128 | 404 with nothing changed when absent; otherwise the name is overwritten and the id kept |
| PublishersRouter.PatchPublisher | app/routers/publishers.py:141-152 | like PUT, but an absent name leaves the table identical |
| PublishersRouter.DeletePublisher | app/routers/publishers.py:164-175 | the key is removed and the old row returned; 404 with nothing changed when absent |
| PublishersRouter.PatchWithNameIsUpdate | app/routers/publishers.py:141-152 | a PATCH carrying the name is the PUT with that name |
| AuthorsRouter.ReadAuthor | app/routers/authors.py:65-75 | the stored author, or the author 404 exactly when absent |
| AuthorsRouter.CreateAuthor | app/routers/authors.py:87-89 | the new author holds the three input names under a fresh id |
| AuthorsRouter.UpdateAuthor | app/routers/authors.py:102-113 | 404 with nothing changed when absent; otherwise all three names are overwritten, an omitted middle name becoming None |
| AuthorsRouter.PatchAuthor | app/routers/authors.py:126-137 | each name is overwritten only when given; a middle name is never cleared; an empty patch changes nothing |
| AuthorsRouter.DeleteAuthor | app/routers/authors.py:149-160 | the key is removed and the old row returned; 404 with nothing changed when absent |
| AuthorsRouter.FullPatchIsUpdate | app/routers/authors.py:126-137 | a PATCH giving every field is the PUT with those fields |
| AuthorsRouter.PutClearsPatchKeepsMiddleName | app/routers/authors.py:110-111 | a PUT without a middle name clears it; a PATCH without one keeps it |
| BooksRouter.ReadBook | app/routers/books.py:68-81 | the stored book, or the book 404 exactly when absent |
| BooksRouter.CreateBook | app/routers/books.py:93-95 | the new book holds the input fields under a fresh id, with no publisher check |
| BooksRouter.UpdateBook | app/routers/books.py:108-119 | 404 with nothing changed when absent; otherwise all six fields are overwritten and the id kept |
| BooksRouter.UpdateForgetsOldRow | app/routers/books.py:116-117 | an updated book keeps nothing of the old row but its id |
| Views.RowsFor | app/db/models.py:80-85 | the loaded records, in order, one per id when all ids exist |
| Views.PublisherOf | app/db/models.py:87-95 | `Book.publisher` is loaded exactly when the foreign key is set and names a stored publisher, and it is that publisher's row |
| Views.ShowBook | app/routers/books.py:59-81 | 404 exactly when the book is absent; when shown, the body carries the book, its linked authors and the publisher its foreign key names |
| Views.ShowAuthor | app/routers/authors.py:56-75 | 404 exactly when the author is absent; when shown, the body carries the author and its linked books |
| Views.ShowPublisher | app/routers/publishers.py:71-90 | 404 exactly when the publisher is absent; when shown, the body carries the publisher and its books |
| Views.DeletePublisher | app/routers/publishers.py:155-175 | the row is removed and the body is what GET showed just before |
| Views.DeleteAuthor | app/routers/authors.py:140-160 | the row is removed and the body is what GET showed just before |
| Views.ShowAfterDelete | app/routers/publishers.py:164-175 | after a DELETE of a publisher or an author, the same GET answers that table's 404 |
| Views.DistinctBooksShowDistinct | app/db/schemas.py:109 | distinct stored book ids give distinct `Book` bodies, so the uniqueness constraint holds |
| Views.AuthorAlwaysShown | app/db/schemas.py:108-109 | on a well-formed library every existing author passes `Author_Books` |
| Views.PublisherAlwaysShown | app/db/schemas.py:116-117 | on a well-formed library every existing publisher passes `Publisher_Books` |
| Views.BookShownIff | app/db/schemas.py:96-105 | on a well-formed library a book is shown exactly when it has an author and a publisher |
| Views.UnlinkedBookHasNoAuthors | app/db/models.py:80-85 | a book no association row names has no authors |
| Views.UnissuedBookHasNoAuthors | app/db/models.py:17-22 | no association row names an id the book sequence has not handed out |
| Views.CreatedBookNotShown | app/routers/books.py:89-95 | a book just created has no authors, so reading it as `Book_All` fails with the `min_items` error |
| Views.PublisherWritesKeepInvariants | app/routers/publishers.py:98-152 | creating, updating and patching publishers keep the library's invariants |
| Views.AuthorWritesKeepInvariants | app/routers/authors.py:83-137 | creating, updating and patching authors keep the library's invariants |
| Views.CreateBookKeepsInvariantsIff | app/routers/books.py:89-95 | a created book keeps the invariants exactly when its publisher exists |
| Views.UpdateBookKeepsInvariantsIff | app/routers/books.py:103-119 | an updated book keeps the invariants exactly when its new publisher exists |
| Views.CreateBook | app/routers/books.py:89-95 | the committed POST: every POST draws the next book id; refused, with no row stored and the other tables unchanged, exactly when the publisher is absent; otherwise the router's insert, answered as the `Book` schema of the stored row (no `publisher_id`) |
| Views.UpdateBook | app/routers/books.py:103-119 | the committed PUT: 404 exactly when the book is absent, refused when the publisher is absent, and the library unchanged whenever nothing is written; a write is answered as the `Book` schema of the stored row |
| Views.BookWritesKeepInvariants | app/routers/books.py:89-119 | committed book writes keep the library well-formed |
| Views.PutsAreIdempotent | app/routers/publishers.py:117-128 | repeating a PUT on a publisher, author or book changes nothing more |

## Left out

- `patch_book` (app/routers/books.py:122-143) is not modelled. It uses `schemas.BookPatch`, which the schemas module does not define.
- `delete_book` (app/routers/books.py:146-166) is not modelled. It loads `Book.books`, which the model class does not define.
- What deleting a record does to the rows that refer to it (dangling `publisher_id`, association rows) is not modelled. `Views.DeletePublisher` and `Views.DeleteAuthor` change only the record's own table.
- How the accepted filter values narrow and order the query is not modelled: the SQL `WHERE`/`ORDER BY`, `ilike` matching and pagination. The model records which clauses are added, not what they select.
- The filter wrapper's conversion of list fields to strings and back is not modelled. Filter input reaches `Dependencies.Validate` already typed.
- Sessions, row locks (`with_for_update`), commits and concurrency are not modelled. Each request is one atomic step on the library.
- Views.CreateBook, Views.UpdateBook: the refusal of a dangling `publisher_id` assumes a backend that enforces foreign keys (PostgreSQL, or SQLite with `PRAGMA foreign_keys` on). Without enforcement the row is stored and `WellFormed` fails. The refusal surfaces as an unhandled integrity error (a 500), whose body is not modelled. A refused POST uses up its id, as a PostgreSQL sequence does; SQLite's `INTEGER PRIMARY KEY` instead takes one more than the largest id in use, so it reuses a refused or deleted highest id, which `Store.next` does not model.
- Dependencies.Validate, Dependencies.ListQueryRefusesBannedSort: "refused exactly when a banned entry is given" assumes the `fastapi_filter` base class adds no failing validator of its own on `order_by`. That class is not part of this model.
- The order of `Publisher.books`, `Book.authors` and `Author.books` is not modelled. The relationships are loaded with `selectinload`, which promises no order; the model lists publisher books by id and the other two in association-row order.
- Ids come from a per-table sequence (`Store.next`). Integer widths are not modelled; integers are unbounded. On PostgreSQL the `BigInteger` ids are 64-bit and the `Integer` columns `year`, `pages` and `edition` are 32-bit; on SQLite every INTEGER is 64-bit.
- `Text.ParseInt` accepts an optional sign followed by ASCII digits. It does not model the extra forms Python's `int()` accepts (surrounding whitespace, underscores, non-ASCII digits).
- The unused `STATUS_404` constant (app/routers/publishers.py:40-48) is not modelled.
- Application start-up, the settings, the database engine, the migrations and the event routes are not part of this model.

=== FILE: authors.dfy ===
/** The `/authors` endpoints as operations on the authors table. */
module AuthorsRouter {
  import opened Wrappers
  import Models
  import Schemas
  import Dependencies
  import Crud

  type Authors = Models.Store<Models.Author>

  const Table := "author"

  /** Every author is stored under its own id. */
  predicate KeyedById(s: Authors) {
    Crud.KeyedById(s, (a: Models.Author) => a.id)
  }

  /** `read_author`: the stored row, or the author 404. */
  function ReadAuthor(s: Authors, id: int): (r: Result<Models.Author, Dependencies.HttpException>)
    ensures r.Ok? <==> id in s.rows
    ensures r.Ok? ==> r.value == s.rows[id]
    ensures r.Err? ==> r.error == Dependencies.RaiseNotFound("author")
  {
    Crud.Get(s, id, Table)
  }

  /** `create_author`: a new row holding exactly the input's fields. */
  function CreateAuthor(s: Authors, input: Schemas.AuthorCreate): (r: Crud.Reply<Models.Author>)
    ensures r.body.Ok?
    ensures var a := r.body.value;
      a.firstName == input.firstName && a.lastName == input.lastName && a.middleName == input.middleName
    ensures r.store.rows == s.rows[r.body.value.id := r.body.value]
    ensures Models.SequenceAhead(s) ==> r.body.value.id !in s.rows && Models.SequenceAhead(r.store)
    ensures KeyedById(s) ==> KeyedById(r.store)
  {
    Crud.Insert(s, id => Models.Author(id, input.firstName, input.lastName, input.middleName))
  }

  /** What PUT writes: every `AuthorCreate` field, so an omitted middle name clears it. */
  function Replace(a: Models.Author, input: Schemas.AuthorCreate): Models.Author {
    a.(firstName := input.firstName, lastName := input.lastName, middleName := input.middleName)
  }

  /** What PATCH writes: the fields that are not None; the rest stay as stored. */
  function Patch(a: Models.Author, input: Schemas.AuthorPatch): Models.Author {
    var a1 := if input.firstName.Some? then a.(firstName := input.firstName.value) else a;
    var a2 := if input.lastName.Some? then a1.(lastName := input.lastName.value) else a1;
    if input.middleName.Some? then a2.(middleName := input.middleName) else a2
  }

  /** `update_author`: 404 with nothing changed when the id is absent; otherwise all
      three name fields take the input's values (a missing middle name becomes None)
      and the id and every other row are kept. */
  function UpdateAuthor(s: Authors, id: int, input: Schemas.AuthorCreate): (r: Crud.Reply<Models.Author>)
    ensures r.body.Err? <==> id !in s.rows
    ensures r.body.Err? ==> r.store == s && r.body.error == Dependencies.RaiseNotFound("author")
    ensures r.body.Ok? ==>
      r.body.value == Models.Author(s.rows[id].id, input.firstName, input.lastName, input.middleName)
    ensures r.body.Ok? ==> r.store == Models.Store(s.rows[id := r.body.value], s.next)
    ensures KeyedById(s) ==> KeyedById(r.store)
  {
    Crud.Modify(s, id, Table, a => Replace(a, input))
  }

  /** `patch_author`: each field is overwritten only when supplied, so PATCH can
      never clear a middle name. */
  function PatchAuthor(s: Authors, id: int, input: Schemas.AuthorPatch): (r: Crud.Reply<Models.Author>)
    ensures r.body.Err? <==> id !in s.rows
    ensures r.body.Err? ==> r.store == s && r.body.error == Dependencies.RaiseNotFound("author")
    ensures r.body.Ok? ==>
      var prior := s.rows[id];
      r.body.value == Models.Author(prior.id,
        input.firstName.GetOr(prior.firstName),
        input.lastName.GetOr(prior.lastName),
        if input.middleName.Some? then input.middleName else prior.middleName)
    ensures r.body.Ok? ==> r.store == Models.Store(s.rows[id := r.body.value], s.next)
    ensures r.body.Ok? && s.rows[id].middleName.Some? ==> r.body.value.middleName.Some?
    ensures input == Schemas.AuthorPatch(None, None, None) ==> r.store == s
    ensures KeyedById(s) ==> KeyedById(r.store)
  {
    Crud.Modify(s, id, Table, a => Patch(a, input))
  }

  /** `delete_author`: the key removed and the row returned as it was before;
      404 with nothing changed when absent. */
  function DeleteAuthor(s: Authors, id: int): (r: Crud.Reply<Models.Author>)
    ensures r.body.Err? <==> id !in s.rows
    ensures r.body.Err? ==> r.store == s && r.body.error == Dependencies.RaiseNotFound("author")
    ensures r.body.Ok? ==> r.body.value == s.rows[id] && r.store == Models.Store(s.rows - {id}, s.next)
    ensures KeyedById(s) ==> KeyedById(r.store)
  {
    Crud.Delete(s, id, Table)
  }

  /** A PATCH that supplies every field acts exactly as a PUT with those fields. */
  lemma FullPatchIsUpdate(s: Authors, id: int, first: string, last: string, middle: string)
    ensures PatchAuthor(s, id, Schemas.AuthorPatch(Some(first), Some(last), Some(middle))) ==
      UpdateAuthor(s, id, Schemas.AuthorCreate(first, last, Some(middle)))
  {
  }

  /** PUT and PATCH part ways on the middle name: a PUT without one clears it,
      a PATCH without one keeps it. */
  lemma PutClearsPatchKeepsMiddleName(s: Authors, id: int, first: string, last: string)
    requires id in s.rows && s.rows[id].middleName.Some?
    ensures UpdateAuthor(s, id, Schemas.AuthorCreate(first, last, None)).body.value.middleName == None
    ensures PatchAuthor(s, id, Schemas.AuthorPatch(Some(first), Some(last), None)).body.value.middleName ==
      s.rows[id].middleName
  {
  }
}

=== FILE: books.dfy ===
/** The `/books` endpoints the model covers: read, create and update. */
module BooksRouter {
  import opened Wrappers
  import Models
  import Schemas
  import Dependencies
  import Crud

  type Books = Models.Store<Models.Book>

  const Table := "book"

  /** Every book is stored under its own id. */
  predicate KeyedById(s: Books) {
    Crud.KeyedById(s, (b: Models.Book) => b.id)
  }

  /** The book record `Book(**input.dict())` builds under a given id. */
  function FromInput(id: int, input: Schemas.BookCreate): (b: Models.Book)
    ensures b.id == id && b.publisherId == Some(input.publisherId)
    ensures b.title == input.title && b.year == input.year && b.description == input.description
    ensures b.pages == input.pages && b.edition == input.edition
  {
    Models.Book(id, input.title, input.year, input.pages, input.edition, input.description, Some(input.publisherId))
  }

  /** `read_book`: the stored row, or the book 404. */
  function ReadBook(s: Books, id: int): (r: Result<Models.Book, Dependencies.HttpException>)
    ensures r.Ok? <==> id in s.rows
    ensures r.Ok? ==> r.value == s.rows[id]
    ensures r.Err? ==> r.error == Dependencies.RaiseNotFound("book")
  {
    Crud.Get(s, id, Table)
  }

  /** `create_book`: a new row holding the input's fields, its publisher id stored
      as given (the router does not look the publisher up). */
  function CreateBook(s: Books, input: Schemas.BookCreate): (r: Crud.Reply<Models.Book>)
    ensures r.body.Ok? && r.body.value == FromInput(r.body.value.id, input)
    ensures r.store.rows == s.rows[r.body.value.id := r.body.value]
    ensures Models.SequenceAhead(s) ==> r.body.value.id !in s.rows && Models.SequenceAhead(r.store)
    ensures KeyedById(s) ==> KeyedById(r.store)
  {
    Crud.Insert(s, id => FromInput(id, input))
  }

  /** `update_book`: 404 with nothing changed when the id is absent; otherwise every
      `BookCreate` field is overwritten (omitted optional ones become None) and the
      id and every other row are kept. */
  function UpdateBook(s: Books, id: int, input: Schemas.BookCreate): (r: Crud.Reply<Models.Book>)
    ensures r.body.Err? <==> id !in s.rows
    ensures r.body.Err? ==> r.store == s && r.body.error == Dependencies.RaiseNotFound("book")
    ensures r.body.Ok? ==> r.body.value == FromInput(s.rows[id].id, input)
    ensures r.body.Ok? ==> r.store == Models.Store(s.rows[id := r.body.value], s.next)
    ensures KeyedById(s) ==> KeyedById(r.store)
  {
    Crud.Modify(s, id, Table, (b: Models.Book) => FromInput(b.id, input))
  }

  /** PUT leaves nothing of the old row but its id: the updated row is the row
      a POST of the same input would create, under the old id. */
  lemma UpdateForgetsOldRow(s: Books, id: int, input: Schemas.BookCreate)
    requires id in s.rows
    ensures var b := UpdateBook(s, id, input).body.value;
      b == FromInput(s.rows[id].id, input) && CreateBook(s, input).body.value == b.(id := s.next)
  {
  }
}

=== FILE: crud.dfy ===
/** The request shape every entity router shares: look the row up by id (404 if
    absent), then read, replace, or delete it; or insert a new row under the next
    id of the table's sequence. */
module Crud {
  import opened Wrappers
  import Models
  import Dependencies

  /** The table after a request, and the response the request produced. */
  datatype Reply<R> = Reply(store: Models.Store<R>, body: Result<R, Dependencies.HttpException>)

  /** Every row is stored under its own id, `idOf` reading a row's id column. */
  predicate KeyedById<R>(s: Models.Store<R>, idOf: R -> int) {
    forall k :: k in s.rows ==> idOf(s.rows[k]) == k
  }

  /** `session.get(Model, id)`, with `raise_404(table)` when it finds nothing. */
  function Get<R>(s: Models.Store<R>, id: int, table: string): (r: Result<R, Dependencies.HttpException>)
    ensures r.Ok? <==> id in s.rows
    ensures r.Ok? ==> r.value == s.rows[id]
    ensures r.Err? ==> r.error == Dependencies.RaiseNotFound(table)
  {
    if id in s.rows then Ok(s.rows[id]) else Err(Dependencies.RaiseNotFound(table))
  }

  /** `session.add(row)` and commit: the row takes the sequence's next id. */
  function Insert<R>(s: Models.Store<R>, make: int -> R): (r: Reply<R>)
    ensures r.body == Ok(make(s.next))
    ensures r.store == Models.Store(s.rows[s.next := make(s.next)], s.next + 1)
    ensures Models.SequenceAhead(s) ==> s.next !in s.rows && Models.SequenceAhead(r.store)
  {
    Reply(Models.Store(s.rows[s.next := make(s.next)], s.next + 1), Ok(make(s.next)))
  }

  /** Look the row up (404 and no change if absent), then store `change(row)`. */
  function Modify<R>(s: Models.Store<R>, id: int, table: string, change: R -> R): (r: Reply<R>)
    ensures id !in s.rows ==> r == Reply(s, Err(Dependencies.RaiseNotFound(table)))
    ensures id in s.rows ==> r.body == Ok(change(s.rows[id]))
    ensures id in s.rows ==> r.store == Models.Store(s.rows[id := change(s.rows[id])], s.next)
    ensures r.store.rows.Keys == s.rows.Keys
    ensures Models.SequenceAhead(s) ==> Models.SequenceAhead(r.store)
  {
    match Get(s, id, table)
    case Err(e) => Reply(s, Err(e))
    case Ok(row) => Reply(Models.Store(s.rows[id := change(row)], s.next), Ok(change(row)))
  }

  /** `session.delete(row)` and commit, returning the row as it was (404 and no
      change if absent). */
  function Delete<R>(s: Models.Store<R>, id: int, table: string): (r: Reply<R>)
    ensures id !in s.rows ==> r == Reply(s, Err(Dependencies.RaiseNotFound(table)))
    ensures id in s.rows ==> r.body == Ok(s.rows[id])
    ensures r.store == Models.Store(s.rows - {id}, s.next)
    ensures Models.SequenceAhead(s) ==> Models.SequenceAhead(r.store)
  {
    match Get(s, id, table)
    case Err(e) => Reply(s, Err(e))
    case Ok(row) => Reply(Models.Store(s.rows - {id}, s.next), Ok(row))
  }

  /** Reading after a delete of the same id fails; other ids read as before. */
  lemma GetAfterDelete<R>(s: Models.Store<R>, id: int, other: int, table: string)
    ensures Get(Delete(s, id, table).store, id, table) == Err(Dependencies.RaiseNotFound(table))
    ensures other != id ==> Get(Delete(s, id, table).store, other, table) == Get(s, other, table)
  {
  }

  /** Reading the new id after an insert returns the inserted row; ids in use read as before. */
  lemma GetAfterInsert<R>(s: Models.Store<R>, make: int -> R, other: int, table: string)
    requires Models.SequenceAhead(s)
    ensures Get(Insert(s, make).store, s.next, table) == Insert(s, make).body
    ensures other in s.rows ==> Get(Insert(s, make).store, other, table) == Get(s, other, table)
  {
  }

  /** Reading after a modification returns the modified row; other ids read as before. */
  lemma GetAfterModify<R>(s: Models.Store<R>, id: int, other: int, table: string, change: R -> R)
    ensures Get(Modify(s, id, table, change).store, id, table) ==
      (if id in s.rows then Modify(s, id, table, change).body else Get(s, id, table))
    ensures other != id ==> Get(Modify(s, id, table, change).store, other, table) == Get(s, other, table)
  {
  }

  /** Writing a row is idempotent whenever the write itself is: a second identical
      request finds the row it wrote and changes nothing more. */
  lemma ModifyIdempotent<R>(s: Models.Store<R>, id: int, table: string, change: R -> R)
    requires forall row :: change(change(row)) == change(row)
    ensures var once := Modify(s, id, table, change);
      Modify(once.store, id, table, change) == once
  {
    var once := Modify(s, id, table, change);
    if id in s.rows {
      assert once.store.rows[id := change(once.body.value)] == once.store.rows;
    }
  }
}

=== FILE: dependencies.dfy ===
/** Shared request plumbing: the fixed 404 bodies and the filter wrapper that
    re-validates query values and reports failures as 422 bodies located in the query. */
module Dependencies {
  import opened Wrappers
  import Text
  import Models
  import Schemas
  import Filters

  const NotFoundStatus: nat := 404
  const UnprocessableStatus: nat := 422

  /** An `HTTPException`: a status code and the `detail` list of the body. */
  datatype HttpException = HttpException(status: nat, detail: seq<Schemas.ErrorDetails>)

  /** `raise_404(table)`. */
  function RaiseNotFound(table: string): (e: HttpException)
    ensures e.status == NotFoundStatus && |e.detail| == 1
    ensures e.detail[0].loc.None?
    ensures e.detail[0].msg == "No such " + table + "."
  {
    HttpException(NotFoundStatus, [Schemas.ErrorDetails(None, "No such " + table + ".", "not_found." + table)])
  }

  /** Reads the table name back out of a `raise_404` message. */
  function NotFoundMessageTable(msg: string): Option<string> {
    var prefix := "No such ";
    if |msg| >= |prefix| + 1 && msg[..|prefix|] == prefix && msg[|msg| - 1] == '.' then
      Some(msg[|prefix|..|msg| - 1])
    else None
  }

  /** The message of a 404 body names the table it was raised for. */
  lemma NotFoundMessageNamesTable(table: string)
    ensures NotFoundMessageTable(RaiseNotFound(table).detail[0].msg) == Some(table)
  {
    var msg := RaiseNotFound(table).detail[0].msg;
    assert msg[..|"No such "|] == "No such ";
    assert msg[|"No such "|..|msg| - 1] == table;
  }

  /** `raise_404_list(table, ids)`: the ids rendered as a Python list. */
  function RaiseNotFoundList(table: string, ids: seq<int>): (e: HttpException)
    ensures e.status == NotFoundStatus && |e.detail| == 1
    ensures e.detail[0].loc.None?
    ensures e.detail[0].kind == RaiseNotFound(table).detail[0].kind
  {
    HttpException(NotFoundStatus, [Schemas.ErrorDetails(None, "No such " + table + ": " + Text.RenderIntList(ids) + ".", "not_found." + table)])
  }

  /** Reads the table name back out of a not-found error type. */
  function NotFoundTable(kind: string): Option<string> {
    var prefix := "not_found.";
    if |kind| >= |prefix| && kind[..|prefix|] == prefix then Some(kind[|prefix|..]) else None
  }

  /** The error type of a 404 body names the table it was raised for. */
  lemma NotFoundNamesTable(table: string)
    ensures NotFoundTable(RaiseNotFound(table).detail[0].kind) == Some(table)
  {
    var kind := RaiseNotFound(table).detail[0].kind;
    assert kind[..|"not_found."|] == "not_found.";
    assert kind[|"not_found."|..] == table;
  }

  /** Different tables give different 404 bodies. */
  lemma NotFoundInjective(a: string, b: string)
    requires RaiseNotFound(a) == RaiseNotFound(b)
    ensures a == b
  {
    NotFoundNamesTable(a);
    NotFoundNamesTable(b);
  }

  /** Reads the id list back out of a `raise_404_list` message. */
  function NotFoundIds(table: string, msg: string): Option<seq<int>> {
    var prefix := "No such " + table + ": ";
    if |msg| >= |prefix| + 1 && msg[..|prefix|] == prefix && msg[|msg| - 1] == '.' then
      Text.ParseIntList(msg[|prefix|..|msg| - 1])
    else None
  }

  /** The message of `raise_404_list` carries exactly the ids it was given, in order,
      rendered as Python prints a list (so `[]` when there are none). */
  lemma NotFoundListRoundTrip(table: string, ids: seq<int>)
    ensures NotFoundIds(table, RaiseNotFoundList(table, ids).detail[0].msg) == Some(ids)
  {
    var prefix := "No such " + table + ": ";
    var rendered := Text.RenderIntList(ids);
    var msg := RaiseNotFoundList(table, ids).detail[0].msg;
    assert msg == prefix + rendered + ".";
    assert msg[..|prefix|] == prefix;
    assert msg[|prefix|..|msg| - 1] == rendered;
    Text.IntListRoundTrip(ids);
  }

  /** An empty id list renders as `[]`. */
  lemma NotFoundListEmpty(table: string)
    ensures RaiseNotFoundList(table, []).detail[0].msg == "No such " + table + ": []."
  {
  }

  /** The relocation the wrapper applies to a validation failure: `"query"` put in
      front of every error's location, nothing else changed. */
  function Relocate(errors: seq<Schemas.FieldError>): (r: seq<Schemas.ErrorDetails>)
    ensures |r| == |errors|
    ensures forall i :: 0 <= i < |errors| ==>
      r[i] == Schemas.ErrorDetails(Some(["query"] + errors[i].loc), errors[i].msg, errors[i].kind)
  {
    if |errors| == 0 then []
    else [Schemas.ErrorDetails(Some(["query"] + errors[0].loc), errors[0].msg, errors[0].kind)] + Relocate(errors[1..])
  }

  /** Strips the leading `"query"` again; None if some entry does not carry it. */
  function Unlocate(details: seq<Schemas.ErrorDetails>): Option<seq<Schemas.FieldError>> {
    if |details| == 0 then Some([])
    else
      var d := details[0];
      if d.loc.Some? && |d.loc.value| >= 1 && d.loc.value[0] == "query" then
        match Unlocate(details[1..])
        case None => None
        case Some(rest) => Some([Schemas.FieldError(d.loc.value[1..], d.msg, d.kind)] + rest)
      else None
  }

  /** Relocation loses nothing: the original errors, in order, can be recovered. */
  lemma {:induction false} RelocateRoundTrip(errors: seq<Schemas.FieldError>)
    ensures Unlocate(Relocate(errors)) == Some(errors)
    decreases |errors|
  {
    if |errors| > 0 {
      var r := Relocate(errors);
      var e := errors[0];
      var loc := ["query"] + e.loc;
      assert r[0] == Schemas.ErrorDetails(Some(loc), e.msg, e.kind);
      assert loc[0] == "query" && loc[1..] == e.loc;
      assert r[1..] == Relocate(errors[1..]);
      RelocateRoundTrip(errors[1..]);
      assert Unlocate(r) == Some([Schemas.FieldError(e.loc, e.msg, e.kind)] + errors[1..]);
      assert [errors[0]] + errors[1..] == errors;
    }
  }

  /** Relocation keeps the order: it distributes over concatenation. */
  lemma {:induction false} RelocateConcat(a: seq<Schemas.FieldError>, b: seq<Schemas.FieldError>)
    ensures Relocate(a + b) == Relocate(a) + Relocate(b)
  {
    var l, r := Relocate(a + b), Relocate(a) + Relocate(b);
    assert |l| == |r|;
    forall i | 0 <= i < |l|
      ensures l[i] == r[i]
    {
      if i < |a| {
        assert (a + b)[i] == a[i];
      } else {
        assert (a + b)[i] == b[i - |a|];
      }
    }
  }

  /** A declared field given in the query whose value does not decode. */
  predicate Unparsable(f: Filters.FilterField, q: Schemas.Query) {
    Filters.Key(f) in q && Filters.Decode(f, q[Filters.Key(f)]).None?
  }

  /** The generated filter model read from the query string: only the declared
      keys are read and every other query parameter is ignored; an integer key whose
      value does not parse is reported, in declaration order, at `query.<key>`. */
  function ReadFields(fields: seq<Filters.FilterField>, q: Schemas.Query): (r: Result<map<string, Models.Value>, seq<Schemas.FieldError>>)
    ensures r.Ok? <==> forall i :: 0 <= i < |fields| ==> !Unparsable(fields[i], q)
    ensures r.Ok? ==> forall k :: k in r.value <==> k in q && Filters.FieldFor(fields, k).Some?
    ensures r.Ok? ==> forall k :: k in r.value ==>
      Filters.Decode(Filters.FieldFor(fields, k).value, q[k]) == Some(r.value[k])
    decreases |fields|
  {
    if |fields| == 0 then Ok(map[])
    else
      var f := fields[0];
      var k := Filters.Key(f);
      var rest := ReadFields(fields[1..], q);
      var headErrors := if Unparsable(f, q) then [Schemas.NotAnInteger(k)] else [];
      if headErrors == [] && rest.Ok? then
        Ok(if k in q then rest.value[k := Filters.Decode(f, q[k]).value] else rest.value)
      else
        Err(headErrors + (if rest.Err? then rest.error else []))
  }

  /** Every declared field whose value does not decode is reported. */
  lemma {:induction false} ReadFieldsReports(fields: seq<Filters.FilterField>, q: Schemas.Query, i: int)
    requires 0 <= i < |fields| && Unparsable(fields[i], q)
    ensures ReadFields(fields, q).Err?
    ensures Schemas.NotAnInteger(Filters.Key(fields[i])) in ReadFields(fields, q).error
    decreases |fields|
  {
    if i > 0 {
      assert fields[1..][i - 1] == fields[i];
      ReadFieldsReports(fields[1..], q, i - 1);
    }
  }

  /** Nothing but such fields is reported. */
  lemma {:induction false} ReadFieldsReportsOnly(fields: seq<Filters.FilterField>, q: Schemas.Query, e: Schemas.FieldError)
    requires ReadFields(fields, q).Err?
    requires e in ReadFields(fields, q).error
    ensures exists i :: 0 <= i < |fields| && Unparsable(fields[i], q) && e == Schemas.NotAnInteger(Filters.Key(fields[i]))
    decreases |fields|
  {
    var f := fields[0];
    if Unparsable(f, q) && e == Schemas.NotAnInteger(Filters.Key(f)) {
      assert Unparsable(fields[0], q);
    } else {
      var rest := ReadFields(fields[1..], q);
      assert rest.Err? && e in rest.error;
      ReadFieldsReportsOnly(fields[1..], q, e);
      var j :| 0 <= j < |fields[1..]| && Unparsable(fields[1..][j], q) && e == Schemas.NotAnInteger(Filters.Key(fields[1..][j]));
      assert fields[j + 1] == fields[1..][j];
    }
  }

  /** The errors pydantic collects for the declared fields, one per field whose
      value does not decode, in declaration order. */
  function UnparsableErrors(fields: seq<Filters.FilterField>, q: Schemas.Query): (r: seq<Schemas.FieldError>)
    ensures |r| <= |fields|
    ensures r == [] <==> forall i :: 0 <= i < |fields| ==> !Unparsable(fields[i], q)
    decreases |fields|
  {
    if |fields| == 0 then []
    else
      var rest := UnparsableErrors(fields[1..], q);
      assert forall i :: 1 <= i < |fields| ==> fields[1..][i - 1] == fields[i];
      if Unparsable(fields[0], q) then [Schemas.NotAnInteger(Filters.Key(fields[0]))] + rest else rest
  }

  /** A failed read reports the whole error list, in declaration order. */
  lemma {:induction false} ReadFieldsErrorList(fields: seq<Filters.FilterField>, q: Schemas.Query)
    requires ReadFields(fields, q).Err?
    ensures ReadFields(fields, q).error == UnparsableErrors(fields, q)
    decreases |fields|
  {
    var rest := ReadFields(fields[1..], q);
    if rest.Err? {
      ReadFieldsErrorList(fields[1..], q);
    } else {
      assert UnparsableErrors(fields[1..], q) == [];
    }
  }

  /** A failed read reports exactly the declared integer keys whose value does not
      parse, each as "value is not a valid integer" at `query.<key>`. */
  lemma ReadFieldsErrors(fields: seq<Filters.FilterField>, q: Schemas.Query, e: Schemas.FieldError)
    requires ReadFields(fields, q).Err?
    ensures e in ReadFields(fields, q).error <==>
      exists i :: 0 <= i < |fields| && Unparsable(fields[i], q) && e == Schemas.NotAnInteger(Filters.Key(fields[i]))
  {
    if e in ReadFields(fields, q).error {
      ReadFieldsReportsOnly(fields, q, e);
    }
    if exists i :: 0 <= i < |fields| && Unparsable(fields[i], q) && e == Schemas.NotAnInteger(Filters.Key(fields[i])) {
      var i :| 0 <= i < |fields| && Unparsable(fields[i], q) && e == Schemas.NotAnInteger(Filters.Key(fields[i]));
      ReadFieldsReports(fields, q, i);
    }
  }

  /** The `detail` entries of a request validation failure, locations as reported. */
  function Details(errors: seq<Schemas.FieldError>): (r: seq<Schemas.ErrorDetails>)
    ensures |r| == |errors|
    ensures forall i :: 0 <= i < |errors| ==>
      r[i] == Schemas.ErrorDetails(Some(errors[i].loc), errors[i].msg, errors[i].kind)
  {
    if |errors| == 0 then []
    else [Schemas.ErrorDetails(Some(errors[0].loc), errors[0].msg, errors[0].kind)] + Details(errors[1..])
  }

  /** The filter values as the generated model hands them over: the declared
      fields read with their declared types, and `order_by` as a list of entries. */
  datatype FilterValues = FilterValues(values: map<string, Models.Value>, orderBy: Option<seq<string>>)

  /** A filter model instance that passed validation. */
  datatype ValidFilter = ValidFilter(table: Models.Entity, values: map<string, Models.Value>, orderBy: Option<seq<string>>)

  /** Re-validating the values with the entity's filter class: the only check that
      can fail at this point is `restrict_sortable_fields`, reported by pydantic
      under the location `order_by` with the error type `value_error`. */
  function Validate(t: Models.Entity, input: FilterValues): (r: Result<ValidFilter, seq<Schemas.FieldError>>)
    ensures r.Ok? <==> Filters.RestrictSortableFields(t, input.orderBy).Ok?
    ensures r.Ok? ==> r.value.table == t && r.value.values == input.values
    ensures r.Ok? ==> r.value.orderBy == Filters.RestrictSortableFields(t, input.orderBy).value
    ensures r.Err? ==> r.error == [Schemas.FieldError(["order_by"], Filters.SortError(Filters.BannedSortFields(t)), "value_error")]
  {
    match Filters.RestrictSortableFields(t, input.orderBy)
    case Ok(orderBy) => Ok(ValidFilter(t, input.values, orderBy))
    case Err(msg) => Err([Schemas.FieldError(["order_by"], msg, "value_error")])
  }

  /** A query under construction: the entity it selects and the clauses added so far. */
  datatype Clause = Where(where: ValidFilter) | OrderBy(order: ValidFilter)
  datatype Select = Select(table: Models.Entity, clauses: seq<Clause>)

  /** The 422 body raised for a validation failure. */
  function Unprocessable(errors: seq<Schemas.FieldError>): (e: HttpException)
    ensures e.status == UnprocessableStatus
    ensures Unlocate(e.detail) == Some(errors)
  {
    RelocateRoundTrip(errors);
    HttpException(UnprocessableStatus, Relocate(errors))
  }

  /** `FilterWrapper.filter`: validate, then add the filter's conditions; on failure
      raise 422 and add nothing. */
  function Filter(t: Models.Entity, input: FilterValues, q: Select): (r: Result<Select, HttpException>)
    ensures r.Ok? <==> Validate(t, input).Ok?
    ensures r.Ok? ==> r.value == Select(q.table, q.clauses + [Where(Validate(t, input).value)])
    ensures r.Err? ==> r.error == Unprocessable(Validate(t, input).error)
  {
    match Validate(t, input)
    case Ok(f) => Ok(Select(q.table, q.clauses + [Where(f)]))
    case Err(errors) => Err(Unprocessable(errors))
  }

  /** `FilterWrapper.sort`: validate, then add the ordering; on failure raise 422
      and add nothing. */
  function Sort(t: Models.Entity, input: FilterValues, q: Select): (r: Result<Select, HttpException>)
    ensures r.Ok? <==> Validate(t, input).Ok?
    ensures r.Ok? ==> r.value == Select(q.table, q.clauses + [OrderBy(Validate(t, input).value)])
    ensures r.Err? ==> r.error == Unprocessable(Validate(t, input).error)
  {
    match Validate(t, input)
    case Ok(f) => Ok(Select(q.table, q.clauses + [OrderBy(f)]))
    case Err(errors) => Err(Unprocessable(errors))
  }

  /** `filter` and `sort` validate the same values with the same model: an input
      fails in both or in neither, with the same body. */
  lemma FilterAndSortAgree(t: Models.Entity, input: FilterValues, q1: Select, q2: Select)
    ensures Filter(t, input, q1).Err? <==> Sort(t, input, q2).Err?
    ensures Filter(t, input, q1).Err? ==> Filter(t, input, q1).error == Sort(t, input, q2).error
  {
  }

  /** The query a list endpoint hands to the paginator: the filter values read
      from the query string (FastAPI answers 422 itself when one does not parse),
      then `sort(filter(select(entity)))`. */
  function ListQuery(t: Models.Entity, q: Schemas.Query, orderBy: Option<seq<string>>): (r: Result<Select, HttpException>)
    ensures ReadFields(Filters.Whitelist(t), q).Err? ==>
      r == Err(HttpException(UnprocessableStatus, Details(ReadFields(Filters.Whitelist(t), q).error)))
    ensures r.Ok? ==> ReadFields(Filters.Whitelist(t), q).Ok? && |r.value.clauses| == 2
    ensures r.Ok? ==> Filters.RestrictSortableFields(t, orderBy).Ok? && r.value.table == t
    ensures r.Ok? ==> r.value.clauses[0].Where? && r.value.clauses[1].OrderBy?
    ensures r.Ok? ==> r.value.clauses[1].order.orderBy == Filters.RestrictSortableFields(t, orderBy).value
    ensures r.Ok? ==> forall c :: c in r.value.clauses ==>
      (c.Where? ==> c.where.values == ReadFields(Filters.Whitelist(t), q).value) &&
      (c.OrderBy? ==> c.order.values == ReadFields(Filters.Whitelist(t), q).value)
  {
    match ReadFields(Filters.Whitelist(t), q)
    case Err(errors) => Err(HttpException(UnprocessableStatus, Details(errors)))
    case Ok(values) =>
      var input := FilterValues(values, orderBy);
      match Filter(t, input, Select(t, []))
      case Err(e) => Err(e)
      case Ok(filtered) => Sort(t, input, filtered)
  }

  /** A list query tests only declared filter keys, each with a value of the type
      its operator takes; any other query parameter is dropped. */
  lemma ListQueryUsesDeclaredKeys(t: Models.Entity, q: Schemas.Query, orderBy: Option<seq<string>>)
    requires ListQuery(t, q, orderBy).Ok?
    ensures var values := ListQuery(t, q, orderBy).value.clauses[0].where.values;
      && (forall k :: k in values ==> k in Filters.Keys(Filters.Whitelist(t)) && k in q)
      && (forall k :: k in values ==> Filters.Decode(Filters.FieldFor(Filters.Whitelist(t), k).value, q[k]) == Some(values[k]))
      && (forall k :: k in q && k in Filters.Keys(Filters.Whitelist(t)) ==> k in values)
  {
    var r := ListQuery(t, q, orderBy).value;
    assert r.clauses[0] in r.clauses;
  }

  /** Once the values are read, a list request is refused exactly when some
      `order_by` entry, stripped of its signs, names the entity's banned
      relationship; the refusal is a 422 with one entry located at
      `query.order_by`. */
  lemma ListQueryRefusesBannedSort(t: Models.Entity, q: Schemas.Query, orderBy: Option<seq<string>>)
    ensures ReadFields(Filters.Whitelist(t), q).Ok? ==>
      (ListQuery(t, q, orderBy).Err? <==>
        orderBy.Some? &&
        (exists i :: 0 <= i < |orderBy.value| &&
          Filters.StripSigns(orderBy.value[i]) in Filters.BannedSortFields(t)))
    ensures ReadFields(Filters.Whitelist(t), q).Ok? && ListQuery(t, q, orderBy).Err? ==>
      ListQuery(t, q, orderBy).error == HttpException(UnprocessableStatus, [
        Schemas.ErrorDetails(Some(["query", "order_by"]), Filters.SortError(Filters.BannedSortFields(t)), "value_error")])
  {
    var read := ReadFields(Filters.Whitelist(t), q);
    if read.Ok? {
      var v := Validate(t, FilterValues(read.value, orderBy));
      assert ListQuery(t, q, orderBy).Err? <==> v.Err?;
      if v.Err? {
        assert ListQuery(t, q, orderBy).error == Unprocessable(v.error);
        var errs := [Schemas.FieldError(["order_by"], Filters.SortError(Filters.BannedSortFields(t)), "value_error")];
        assert v.error == errs;
        assert Relocate(errs)[0].loc == Some(["query"] + ["order_by"]);
        assert ["query"] + ["order_by"] == ["query", "order_by"];
      }
    }
  }
  /** An author list request ignores a book filter key such as `year`: the
      request succeeds and the key reaches no clause. */
  lemma AuthorListIgnoresYear(q: Schemas.Query)
    requires q == map["year" := "1"]
    ensures ListQuery(Models.Authors, q, None).Ok?
    ensures "year" !in ListQuery(Models.Authors, q, None).value.clauses[0].where.values
  {
    Filters.AuthorKeys();
    var keys := Filters.Keys(Filters.Whitelist(Models.Authors));
    assert "year" !in keys by {
      assert |"year"| != |keys[0]| && |"year"| != |keys[1]| && |"year"| != |keys[2]|;
    }
    ListQueryUsesDeclaredKeys(Models.Authors, q, None);
  }
}

=== FILE: filters.dfy ===
/** Per-entity filter declarations: which query keys a list endpoint accepts,
    and which fields `order_by` may not name. */
module Filters {
  import opened Wrappers
  import Text
  import Models

  /** A sort entry with every `+` and every `-` deleted, wherever they occur. */
  function StripSigns(field: string): (r: string)
    ensures '+' !in r && '-' !in r
  {
    var noPlus := Text.Remove(field, '+');
    Text.RemoveKeepsAbsent(noPlus, '-', '+');
    Text.Remove(noPlus, '-')
  }

  /** The validator's error message; it names the whole banned list, not the offending entry. */
  function SortError(banned: seq<string>): (r: string)
    ensures |r| >= 19 && r[..19] == "You can't sort by: "
    ensures |banned| == 1 ==> r[19..] == banned[0]
  {
    "You can't sort by: " + Text.Join(banned, ", ")
  }

  /** `check_fields`: the entries unchanged when none of them, stripped of signs,
      is banned; otherwise the error message. */
  function CheckFields(banned: seq<string>, fields: seq<string>): (r: Result<seq<string>, string>)
    ensures r.Ok? <==> forall i :: 0 <= i < |fields| ==> StripSigns(fields[i]) !in banned
    ensures r.Ok? ==> r.value == fields
    ensures r.Err? ==> r.error == SortError(banned)
    decreases |fields|
  {
    if |fields| == 0 then Ok(fields)
    else if StripSigns(fields[0]) in banned then Err(SortError(banned))
    else match CheckFields(banned, fields[1..])
      case Ok(_) => Ok(fields)
      case Err(e) => Err(e)
  }

  /** Stripping signs distributes over concatenation. */
  lemma StripSignsConcat(a: string, b: string)
    ensures StripSigns(a + b) == StripSigns(a) + StripSigns(b)
  {
    Text.RemoveConcat(a, b, '+');
    Text.RemoveConcat(Text.Remove(a, '+'), Text.Remove(b, '+'), '-');
  }

  /** An entry without signs is compared as written. */
  lemma StripSignsUnsigned(s: string)
    requires '+' !in s && '-' !in s
    ensures StripSigns(s) == s
  {
    Text.RemoveAbsent(s, '+');
    Text.RemoveAbsent(s, '-');
  }

  /** A sign inserted anywhere, not only in front, is ignored. */
  lemma SignAnywhereIgnored(a: string, b: string, sign: char)
    requires sign == '+' || sign == '-'
    ensures StripSigns(a + [sign] + b) == StripSigns(a + b)
  {
    StripSignsConcat(a + [sign], b);
    StripSignsConcat(a, [sign]);
    StripSignsConcat(a, b);
    assert StripSigns([sign]) == "";
  }

  /** A banned name with a `+` or `-` inserted at any position is still rejected,
      and the message names the banned list, not the entry. */
  lemma SignedBannedNameRejected(banned: seq<string>, a: string, b: string, sign: char)
    requires a + b in banned && '+' !in a + b && '-' !in a + b
    requires sign == '+' || sign == '-'
    ensures CheckFields(banned, [a + [sign] + b]) == Err(SortError(banned))
  {
    SignAnywhereIgnored(a, b, sign);
    StripSignsUnsigned(a + b);
  }

  /** The relationship each filter refuses to sort by. */
  function BannedSortFields(t: Models.Entity): (r: seq<string>)
    ensures |r| == 1
  {
    match t
    case Authors => ["books"]
    case Books => ["authors"]
    case Publishers => ["books"]
  }

  /** `restrict_sortable_fields`: an absent or empty `order_by` becomes None unchecked;
      anything else goes through `check_fields` with the table's banned list. */
  function RestrictSortableFields(t: Models.Entity, value: Option<seq<string>>): (r: Result<Option<seq<string>>, string>)
    ensures (value.None? || value.value == []) ==> r == Ok(None)
    ensures value.Some? && value.value != [] ==>
      (r.Ok? <==> forall i :: 0 <= i < |value.value| ==> StripSigns(value.value[i]) !in BannedSortFields(t))
    ensures value.Some? && value.value != [] && r.Ok? ==> r.value == value
    ensures r.Err? ==> r.error == SortError(BannedSortFields(t))
  {
    if value.None? || value.value == [] then Ok(None)
    else match CheckFields(BannedSortFields(t), value.value)
      case Ok(fields) => Ok(Some(fields))
      case Err(e) => Err(e)
  }

  /** The comparison operators a filter key can carry. */
  datatype Operator = Equals | LessThan | AtLeast | ILike

  function OperatorSuffix(op: Operator): string {
    match op
    case Equals => ""
    case LessThan => "__lt"
    case AtLeast => "__gte"
    case ILike => "__ilike"
  }

  /** A declared filter field: the column it tests and how. */
  datatype FilterField = FilterField(column: string, op: Operator)

  /** The query key of a filter field, e.g. `year__gte`. */
  function Key(f: FilterField): string {
    f.column + OperatorSuffix(f.op)
  }

  /** The value type a filter operand must have: text for `ilike`, integer otherwise. */
  function OperandType(op: Operator): Models.ColumnType {
    if op == ILike then Models.StringColumn else Models.IntegerColumn
  }

  /** Equality, `__lt` and `__gte` on an integer column. */
  function IntegerFilters(column: string): seq<FilterField> {
    [FilterField(column, Equals), FilterField(column, LessThan), FilterField(column, AtLeast)]
  }

  /** The declared filter fields of each entity, in declaration order. */
  function Whitelist(t: Models.Entity): (r: seq<FilterField>)
    ensures |r| >= 1
  {
    match t
    case Authors => [
      FilterField("first_name", ILike),
      FilterField("last_name", ILike),
      FilterField("middle_name", ILike)]
    case Books =>
      [FilterField("title", ILike)]
      + IntegerFilters("year") + IntegerFilters("pages") + IntegerFilters("edition")
      + [FilterField("description", ILike)]
    case Publishers => [
      FilterField("name", ILike)]
  }

  /** The query keys of a list of filter fields, in the same order. */
  function Keys(fields: seq<FilterField>): (r: seq<string>)
    ensures |r| == |fields|
    ensures forall i :: 0 <= i < |fields| ==> r[i] == Key(fields[i])
  {
    if |fields| == 0 then [] else [Key(fields[0])] + Keys(fields[1..])
  }

  /** The first declared field whose query key is `k`, if any. */
  function FieldFor(fields: seq<FilterField>, k: string): (r: Option<FilterField>)
    ensures r.Some? ==> r.value in fields && Key(r.value) == k
    ensures r.None? <==> k !in Keys(fields)
  {
    if |fields| == 0 then None
    else if Key(fields[0]) == k then Some(fields[0])
    else FieldFor(fields[1..], k)
  }

  /** The value a query string gives a declared field: the text itself for `ilike`,
      an integer otherwise; None when an integer operand does not parse. */
  function Decode(f: FilterField, raw: string): (r: Option<Models.Value>)
    ensures r.Some? <==> f.op == ILike || Text.ParseInt(raw).Some?
    ensures r.Some? && f.op == ILike ==> r.value == Models.StringValue(raw)
    ensures r.Some? && f.op != ILike ==> r.value == Models.IntegerValue(Text.ParseInt(raw).value)
  {
    if f.op == ILike then Some(Models.StringValue(raw))
    else match Text.ParseInt(raw)
      case Some(n) => Some(Models.IntegerValue(n))
      case None => None
  }

  /** Author filters accept only the three name patterns. */
  lemma AuthorKeys()
    ensures Keys(Whitelist(Models.Authors)) == ["first_name__ilike", "last_name__ilike", "middle_name__ilike"]
  {
    var k := Keys(Whitelist(Models.Authors));
    assert k[0] == "first_name__ilike" by { assert k[0] == "first_name" + "__ilike"; }
    assert k[1] == "last_name__ilike" by { assert k[1] == "last_name" + "__ilike"; }
    assert k[2] == "middle_name__ilike" by { assert k[2] == "middle_name" + "__ilike"; }
  }

  /** Publisher filters accept only the name pattern. */
  lemma PublisherKeys()
    ensures Keys(Whitelist(Models.Publishers)) == ["name__ilike"]
  {
    var k := Keys(Whitelist(Models.Publishers));
    assert k[0] == "name__ilike" by { assert k[0] == "name" + "__ilike"; }
  }

  lemma KeysConcat(a: seq<FilterField>, b: seq<FilterField>)
    ensures Keys(a + b) == Keys(a) + Keys(b)
  {
  }

  lemma IntegerFilterKeys(column: string)
    ensures Keys(IntegerFilters(column)) == [column, column + "__lt", column + "__gte"]
  {
    var fs := IntegerFilters(column);
    var k := Keys(fs);
    assert k[0] == Key(fs[0]) == column + "" == column;
    assert k[1] == Key(fs[1]) == column + OperatorSuffix(LessThan) == column + "__lt";
    assert k[2] == Key(fs[2]) == column + OperatorSuffix(AtLeast) == column + "__gte";
  }

  lemma PatternKey(column: string)
    ensures Keys([FilterField(column, ILike)]) == [column + "__ilike"]
  {
    assert Keys([FilterField(column, ILike)])[0] == Key(FilterField(column, ILike));
  }

  /** Book filters accept integer equality, `__lt` and `__gte` on year, pages and
      edition, and patterns on title and description. */
  lemma BookKeys()
    ensures Keys(Whitelist(Models.Books)) ==
      ["title__ilike"]
      + ["year", "year__lt", "year__gte"]
      + ["pages", "pages__lt", "pages__gte"]
      + ["edition", "edition__lt", "edition__gte"]
      + ["description__ilike"]
  {
    var title := [FilterField("title", ILike)];
    var description := [FilterField("description", ILike)];
    var years := IntegerFilters("year");
    var pages := IntegerFilters("pages");
    var editions := IntegerFilters("edition");
    KeysConcat(title, years);
    KeysConcat(title + years, pages);
    KeysConcat(title + years + pages, editions);
    KeysConcat(title + years + pages + editions, description);
    PatternKey("title");
    assert "title" + "__ilike" == "title__ilike";
    PatternKey("description");
    assert "description" + "__ilike" == "description__ilike";
    IntegerFilterKeys("year");
    assert "year" + "__lt" == "year__lt" && "year" + "__gte" == "year__gte";
    IntegerFilterKeys("pages");
    assert "pages" + "__lt" == "pages__lt" && "pages" + "__gte" == "pages__gte";
    IntegerFilterKeys("edition");
    assert "edition" + "__lt" == "edition__lt" && "edition" + "__gte" == "edition__gte";
  }

  /** The declaration of the named column, if the table has one. */
  function FindColumn(columns: seq<Models.Column>, name: string): (r: Option<Models.Column>)
    ensures r.Some? ==> r.value in columns && r.value.name == name
    ensures r.None? ==> forall c :: c in columns ==> c.name != name
  {
    if |columns| == 0 then None
    else if columns[0].name == name then Some(columns[0])
    else FindColumn(columns[1..], name)
  }

  /** A filter field tests a non-key column of the table whose type is the operand type. */
  predicate MatchesColumn(t: Models.Entity, f: FilterField) {
    var c := FindColumn(Models.Columns(t), f.column);
    c.Some? && c.value.kind == OperandType(f.op) && f.column != "id"
  }

  lemma AuthorFiltersMatchColumns(i: nat)
    requires i < |Whitelist(Models.Authors)|
    ensures MatchesColumn(Models.Authors, Whitelist(Models.Authors)[i])
  {
    var cs := Models.Columns(Models.Authors);
    var f := Whitelist(Models.Authors)[i];
    assert cs[1..][1..][1..] == [cs[3]];
    if i == 0 {
      assert FindColumn(cs, f.column) == Some(cs[1]);
    } else if i == 1 {
      assert FindColumn(cs, f.column) == Some(cs[2]);
    } else {
      assert FindColumn(cs, f.column) == Some(cs[3]);
    }
  }

  lemma BookColumnsFound()
    ensures FindColumn(Models.Columns(Models.Books), "title") == Some(Models.Column("title", Models.StringColumn, false))
    ensures FindColumn(Models.Columns(Models.Books), "year") == Some(Models.Column("year", Models.IntegerColumn, false))
    ensures FindColumn(Models.Columns(Models.Books), "pages") == Some(Models.Column("pages", Models.IntegerColumn, true))
    ensures FindColumn(Models.Columns(Models.Books), "edition") == Some(Models.Column("edition", Models.IntegerColumn, true))
    ensures FindColumn(Models.Columns(Models.Books), "description") == Some(Models.Column("description", Models.StringColumn, true))
  {
    var cs := Models.Columns(Models.Books);
    assert cs[1..][1..][1..][1..][1..] == cs[5..];
    assert "title" != "pages" by { assert "title"[0] != "pages"[0]; }
    assert "title" != "year" && "title" != "edition" && "title" != "description";
    assert "year" != "pages" && "year" != "edition" && "year" != "description";
    assert "pages" != "edition" && "pages" != "description";
    assert "edition" != "description";
  }

  lemma BookIntegerFilterMatches(column: string, op: Operator)
    requires column == "year" || column == "pages" || column == "edition"
    requires op != ILike
    ensures MatchesColumn(Models.Books, FilterField(column, op))
  {
    BookColumnsFound();
  }

  lemma BookPatternFilterMatches(column: string)
    requires column == "title" || column == "description"
    ensures MatchesColumn(Models.Books, FilterField(column, ILike))
  {
    BookColumnsFound();
  }

  lemma BookFiltersMatchColumns(f: FilterField)
    requires f in Whitelist(Models.Books)
    ensures MatchesColumn(Models.Books, f)
  {
    var t := [FilterField("title", ILike)];
    var y := IntegerFilters("year");
    var p := IntegerFilters("pages");
    var e := IntegerFilters("edition");
    var d := [FilterField("description", ILike)];
    assert Whitelist(Models.Books) == t + y + p + e + d;
    if f in y || f in p || f in e {
      BookIntegerFilterMatches(f.column, f.op);
    } else {
      assert f in t || f in d;
      BookPatternFilterMatches(f.column);
    }
  }

  /** Every declared filter field tests a non-key column of its entity whose type is
      the operand type: `ilike` only on text columns, comparisons only on integer ones. */
  lemma WhitelistMatchesColumns(t: Models.Entity)
    ensures forall i :: 0 <= i < |Whitelist(t)| ==> MatchesColumn(t, Whitelist(t)[i])
  {
    var w := Whitelist(t);
    forall i | 0 <= i < |w|
      ensures MatchesColumn(t, w[i])
    {
      match t
      case Authors => AuthorFiltersMatchColumns(i);
      case Books => BookFiltersMatchColumns(w[i]);
      case Publishers =>
        var cs := Models.Columns(t);
        assert FindColumn(cs, w[i].column) == Some(cs[1]);
    }
  }

  /** Authors and publishers are filtered by name patterns only; an integer column
      is offered with all three comparisons or not at all. */
  lemma WhitelistShape(t: Models.Entity)
    ensures t != Models.Books ==> forall f :: f in Whitelist(t) ==> f.op == ILike
    ensures forall f :: f in Whitelist(t) && f.op != ILike ==>
      && FilterField(f.column, Equals) in Whitelist(t)
      && FilterField(f.column, LessThan) in Whitelist(t)
      && FilterField(f.column, AtLeast) in Whitelist(t)
  {
    if t == Models.Books {
      var w := Whitelist(t);
      var title := [FilterField("title", ILike)];
      var years := IntegerFilters("year");
      var pages := IntegerFilters("pages");
      var editions := IntegerFilters("edition");
      var description := [FilterField("description", ILike)];
      assert w == title + years + pages + editions + description;
      forall f | f in w && f.op != ILike
        ensures FilterField(f.column, Equals) in w
        ensures FilterField(f.column, LessThan) in w
        ensures FilterField(f.column, AtLeast) in w
      {
        var group := if f in years then years else if f in pages then pages else editions;
        assert f in group;
        assert group == IntegerFilters(f.column);
        assert forall g :: g in group ==> g in w;
      }
    }
  }

  /** The banned sort name is the relationship, which no column of the table bears. */
  lemma BannedNamesAreNotColumns(t: Models.Entity)
    ensures forall b :: b in BannedSortFields(t) ==> FindColumn(Models.Columns(t), b).None?
  {
  }

  /** The three validators ban exactly one relationship each. */
  lemma BannedSortFieldsExactly()
    ensures BannedSortFields(Models.Authors) == ["books"]
    ensures BannedSortFields(Models.Publishers) == ["books"]
    ensures BannedSortFields(Models.Books) == ["authors"]
    ensures SortError(["books"]) == "You can't sort by: books"
    ensures SortError(["authors"]) == "You can't sort by: authors"
  {
  }

  /** `books` with a sign put in at the split `a`|`b` is refused for authors. */
  lemma AuthorSplitBooksRejected(entry: string, a: string, b: string, sign: char)
    requires a + b == "books" && entry == a + [sign] + b
    requires sign == '+' || sign == '-'
    ensures RestrictSortableFields(Models.Authors, Some([entry])) == Err("You can't sort by: books")
  {
    var books := "books";
    assert SortError([books]) == "You can't sort by: books";
    SignedBannedNameRejected([books], a, b, sign);
  }

  /** `-books`, `+books` and `bo-oks` are all refused for authors, with the same message. */
  lemma AuthorSignedBooksRejected(entry: string)
    requires entry == "-books" || entry == "+books" || entry == "bo-oks"
    ensures RestrictSortableFields(Models.Authors, Some([entry])) == Err("You can't sort by: books")
  {
    if entry == "-books" {
      assert entry == [] + ['-'] + "books" && [] + "books" == "books";
      AuthorSplitBooksRejected(entry, [], "books", '-');
    } else if entry == "+books" {
      assert entry == [] + ['+'] + "books" && [] + "books" == "books";
      AuthorSplitBooksRejected(entry, [], "books", '+');
    } else {
      assert entry == "bo" + ['-'] + "oks" && "bo" + "oks" == "books";
      AuthorSplitBooksRejected(entry, "bo", "oks", '-');
    }
  }

  /** The comparison is exact and case-sensitive: `Books` and `books ` pass unchanged. */
  lemma AuthorNearMissesAccepted(entry: string)
    requires entry == "Books" || entry == "books "
    ensures RestrictSortableFields(Models.Authors, Some([entry])) == Ok(Some([entry]))
  {
    StripSignsUnsigned(entry);
    var books := "books";
    assert entry != books by {
      if entry == "Books" { assert entry[0] != books[0]; } else { assert |entry| != |books|; }
    }
  }

  /** Ordinary columns with a direction sign pass. */
  lemma SignedColumnAccepted(t: Models.Entity, sign: char, column: string)
    requires sign == '+' || sign == '-'
    requires '+' !in column && '-' !in column
    requires column !in BannedSortFields(t)
    ensures RestrictSortableFields(t, Some([[sign] + column])) == Ok(Some([[sign] + column]))
  {
    assert [sign] + column == [] + [sign] + column;
    SignAnywhereIgnored([], column, sign);
    assert [] + column == column;
    StripSignsUnsigned(column);
  }
}

=== FILE: models.dfy ===
/** The persisted entities: publishers, authors, books, and the association rows
    linking books to authors. A record's `id` is its primary key; the database
    assigns it. */
module Models {
  import opened Wrappers

  datatype Publisher = Publisher(id: int, name: string)

  datatype Author = Author(id: int, firstName: string, lastName: string, middleName: Option<string>)

  datatype Book = Book(
    id: int,
    title: string,
    year: int,
    pages: Option<int>,
    edition: Option<int>,
    description: Option<string>,
    publisherId: Option<int>)

  /** One row of `author_book_association`; the pair of ids is the whole primary key. */
  datatype AuthorBookAssociation = AuthorBookAssociation(bookId: int, authorId: int)

  /** An entity table: its rows keyed by primary key, and the value its id
      sequence hands out next. */
  datatype Store<R> = Store(rows: map<int, R>, next: int)

  /** The id sequence is ahead of every key in use, and ids start at 1. */
  predicate SequenceAhead<R>(s: Store<R>) {
    s.next >= 1 && forall k :: k in s.rows ==> 1 <= k < s.next
  }

  /** The three entity tables, and the association table in row order. */
  datatype Library = Library(
    publishers: Store<Publisher>,
    authors: Store<Author>,
    books: Store<Book>,
    links: seq<AuthorBookAssociation>)

  datatype Entity = Publishers | Authors | Books

  datatype ColumnType = IntegerColumn | StringColumn

  /** A column declaration: its name, type, and whether it admits NULL. */
  datatype Column = Column(name: string, kind: ColumnType, nullable: bool)

  /** The column declarations of each table, in declaration order. */
  function Columns(t: Entity): seq<Column> {
    match t
    case Publishers => [
      Column("id", IntegerColumn, false),
      Column("name", StringColumn, false)]
    case Authors => [
      Column("id", IntegerColumn, false),
      Column("first_name", StringColumn, false),
      Column("last_name", StringColumn, false),
      Column("middle_name", StringColumn, true)]
    case Books => [
      Column("id", IntegerColumn, false),
      Column("title", StringColumn, false),
      Column("year", IntegerColumn, false),
      Column("pages", IntegerColumn, true),
      Column("edition", IntegerColumn, true),
      Column("description", StringColumn, true),
      Column("publisher_id", IntegerColumn, true)]
  }

  /** A cell as SQL sees it. */
  datatype Value = Null | IntegerValue(i: int) | StringValue(s: string)

  /** A record of any of the three entity tables. */
  datatype Row = PublisherRow(p: Publisher) | AuthorRow(a: Author) | BookRow(b: Book)

  function EntityOf(r: Row): Entity {
    match r
    case PublisherRow(_) => Publishers
    case AuthorRow(_) => Authors
    case BookRow(_) => Books
  }

  function OptionalString(o: Option<string>): Value {
    match o
    case None => Null
    case Some(s) => StringValue(s)
  }

  function OptionalInteger(o: Option<int>): Value {
    match o
    case None => Null
    case Some(i) => IntegerValue(i)
  }

  /** The value a row holds in the named column (Null for a name the table lacks). */
  function Cell(r: Row, column: string): Value {
    match r
    case PublisherRow(p) =>
      if column == "id" then IntegerValue(p.id)
      else if column == "name" then StringValue(p.name)
      else Null
    case AuthorRow(a) =>
      if column == "id" then IntegerValue(a.id)
      else if column == "first_name" then StringValue(a.firstName)
      else if column == "last_name" then StringValue(a.lastName)
      else if column == "middle_name" then OptionalString(a.middleName)
      else Null
    case BookRow(b) =>
      if column == "id" then IntegerValue(b.id)
      else if column == "title" then StringValue(b.title)
      else if column == "year" then IntegerValue(b.year)
      else if column == "pages" then OptionalInteger(b.pages)
      else if column == "edition" then OptionalInteger(b.edition)
      else if column == "description" then OptionalString(b.description)
      else if column == "publisher_id" then OptionalInteger(b.publisherId)
      else Null
  }

  /** A value fits a column when it is NULL only where NULL is allowed and otherwise has the column's type. */
  predicate Fits(v: Value, c: Column) {
    match v
    case Null => c.nullable
    case IntegerValue(_) => c.kind == IntegerColumn
    case StringValue(_) => c.kind == StringColumn
  }

  /** Every record satisfies its table's declarations: no NULL in a non-nullable
      column and every value of the declared type. */
  lemma RowsFitColumns(r: Row)
    ensures forall c :: c in Columns(EntityOf(r)) ==> Fits(Cell(r, c.name), c)
  {
    var cs := Columns(EntityOf(r));
    forall i | 0 <= i < |cs|
      ensures Fits(Cell(r, cs[i].name), cs[i])
    {
      match r
      case PublisherRow(_) =>
      case AuthorRow(a) =>
        if i == 3 { assert Cell(r, "middle_name") == OptionalString(a.middleName); }
      case BookRow(b) =>
        if i == 3 { assert Cell(r, "pages") == OptionalInteger(b.pages); }
        else if i == 4 { assert Cell(r, "edition") == OptionalInteger(b.edition); }
        else if i == 5 { assert Cell(r, "description") == OptionalString(b.description); }
        else if i == 6 { assert Cell(r, "publisher_id") == OptionalInteger(b.publisherId); }
    }
  }

  /** Every nullable column really admits NULL: some record has NULL there. */
  lemma NullableColumnsAdmitNull(t: Entity, c: Column)
    requires c in Columns(t) && c.nullable
    ensures exists r: Row :: EntityOf(r) == t && Cell(r, c.name) == Null
  {
    match t
    case Publishers =>
    case Authors =>
      var r := AuthorRow(Author(0, "", "", None));
      assert Cell(r, c.name) == Null;
    case Books =>
      var r := BookRow(Book(0, "", 0, None, None, None, None));
      assert Cell(r, c.name) == Null;
  }

  /** The ids of the authors linked to a book, in association-row order. This is `Book.authors`. */
  function AuthorIdsOf(links: seq<AuthorBookAssociation>, bookId: int): (r: seq<int>)
    ensures forall a :: a in r <==> AuthorBookAssociation(bookId, a) in links
    decreases |links|
  {
    if |links| == 0 then []
    else
      (if links[0].bookId == bookId then [links[0].authorId] else [])
      + AuthorIdsOf(links[1..], bookId)
  }

  /** The ids of the books linked to an author, in association-row order. This is `Author.books`. */
  function BookIdsOf(links: seq<AuthorBookAssociation>, authorId: int): (r: seq<int>)
    ensures forall b :: b in r <==> AuthorBookAssociation(b, authorId) in links
    decreases |links|
  {
    if |links| == 0 then []
    else
      (if links[0].authorId == authorId then [links[0].bookId] else [])
      + BookIdsOf(links[1..], authorId)
  }

  /** `Book.authors` and `Author.books` are the two sides of one association table. */
  lemma TwoSidedRelation(links: seq<AuthorBookAssociation>, bookId: int, authorId: int)
    ensures authorId in AuthorIdsOf(links, bookId) <==> bookId in BookIdsOf(links, authorId)
  {
  }

  predicate NoDuplicates<T(==)>(s: seq<T>) {
    forall i, j :: 0 <= i < j < |s| ==> s[i] != s[j]
  }

  /** The composite primary key: no (book, author) pair is stored twice. */
  predicate LinksUnique(links: seq<AuthorBookAssociation>) {
    NoDuplicates(links)
  }

  lemma {:induction false} NoDuplicatesPrepend<T>(x: T, s: seq<T>)
    requires NoDuplicates(s) && x !in s
    ensures NoDuplicates([x] + s)
  {
    var t := [x] + s;
    forall i, j | 0 <= i < j < |t|
      ensures t[i] != t[j]
    {
      if i == 0 {
        assert t[j] == s[j - 1];
      } else {
        assert t[i] == s[i - 1] && t[j] == s[j - 1];
      }
    }
  }

  /** Because a pair is linked at most once, a book lists each of its authors once. */
  lemma {:induction false} AuthorIdsUnique(links: seq<AuthorBookAssociation>, bookId: int)
    requires LinksUnique(links)
    ensures NoDuplicates(AuthorIdsOf(links, bookId))
    decreases |links|
  {
    if |links| > 0 {
      var rest := links[1..];
      assert LinksUnique(rest) by {
        forall i, j | 0 <= i < j < |rest|
          ensures rest[i] != rest[j]
        {
          assert rest[i] == links[i + 1] && rest[j] == links[j + 1];
        }
      }
      AuthorIdsUnique(rest, bookId);
      if links[0].bookId == bookId {
        var a := links[0].authorId;
        NoDuplicatesPrepend(a, AuthorIdsOf(rest, bookId));
      } else {
        assert AuthorIdsOf(links, bookId) == AuthorIdsOf(rest, bookId);
      }
    }
  }

  /** Because a pair is linked at most once, an author lists each of their books once. */
  lemma {:induction false} BookIdsUnique(links: seq<AuthorBookAssociation>, authorId: int)
    requires LinksUnique(links)
    ensures NoDuplicates(BookIdsOf(links, authorId))
    decreases |links|
  {
    if |links| > 0 {
      var rest := links[1..];
      assert LinksUnique(rest) by {
        forall i, j | 0 <= i < j < |rest|
          ensures rest[i] != rest[j]
        {
          assert rest[i] == links[i + 1] && rest[j] == links[j + 1];
        }
      }
      BookIdsUnique(rest, authorId);
      if links[0].authorId == authorId {
        var b := links[0].bookId;
        NoDuplicatesPrepend(b, BookIdsOf(rest, authorId));
      } else {
        assert BookIdsOf(links, authorId) == BookIdsOf(rest, authorId);
      }
    }
  }

  /** The ids of the books a publisher owns among ids `lo..hi-1`, ascending. */
  function BookIdsOfPublisher(books: map<int, Book>, publisherId: int, lo: int, hi: int): (r: seq<int>)
    ensures forall b :: b in r <==> lo <= b < hi && b in books && books[b].publisherId == Some(publisherId)
    ensures forall i, j :: 0 <= i < j < |r| ==> r[i] < r[j]
    decreases hi - lo
  {
    if lo >= hi then []
    else
      var rest := BookIdsOfPublisher(books, publisherId, lo + 1, hi);
      assert forall j :: 0 <= j < |rest| ==> lo < rest[j] by {
        forall j | 0 <= j < |rest| ensures lo < rest[j] { assert rest[j] in rest; }
      }
      (if lo in books && books[lo].publisherId == Some(publisherId) then [lo] else []) + rest
  }

  /** `Publisher.books`: the ids of the publisher's books, in id order. */
  function PublisherBookIds(db: Library, publisherId: int): seq<int> {
    BookIdsOfPublisher(db.books.rows, publisherId, 1, db.books.next)
  }

  /** The table invariants the database keeps: every record stored under its own
      id, id sequences ahead of the keys, non-dangling foreign keys, and the
      association's composite key. */
  predicate WellFormed(db: Library) {
    && SequenceAhead(db.publishers) && SequenceAhead(db.authors) && SequenceAhead(db.books)
    && (forall k :: k in db.publishers.rows ==> db.publishers.rows[k].id == k)
    && (forall k :: k in db.authors.rows ==> db.authors.rows[k].id == k)
    && (forall k :: k in db.books.rows ==> db.books.rows[k].id == k)
    && (forall k :: k in db.books.rows && db.books.rows[k].publisherId.Some? ==>
          db.books.rows[k].publisherId.value in db.publishers.rows)
    && (forall i :: 0 <= i < |db.links| ==>
          db.links[i].bookId in db.books.rows && db.links[i].authorId in db.authors.rows)
    && LinksUnique(db.links)
  }

  /** On a well-formed library, `Publisher.books` lists exactly the books whose
      foreign key names the publisher, each once. */
  lemma PublisherBooksExact(db: Library, publisherId: int)
    requires WellFormed(db)
    ensures forall b :: b in PublisherBookIds(db, publisherId) <==>
      b in db.books.rows && db.books.rows[b].publisherId == Some(publisherId)
    ensures NoDuplicates(PublisherBookIds(db, publisherId))
  {
  }
}

=== FILE: publishers.dfy ===
/** The `/publishers` endpoints as operations on the publishers table. */
module PublishersRouter {
  import opened Wrappers
  import Models
  import Schemas
  import Dependencies
  import Crud

  type Publishers = Models.Store<Models.Publisher>

  const Table := "publisher"

  /** Every publisher is stored under its own id. */
  predicate KeyedById(s: Publishers) {
    Crud.KeyedById(s, (p: Models.Publisher) => p.id)
  }

  /** `read_publisher`: the stored row, or the publisher 404. */
  function ReadPublisher(s: Publishers, id: int): (r: Result<Models.Publisher, Dependencies.HttpException>)
    ensures r.Ok? <==> id in s.rows
    ensures r.Ok? ==> r.value == s.rows[id]
    ensures r.Err? ==> r.error == Dependencies.RaiseNotFound("publisher")
  {
    Crud.Get(s, id, Table)
  }

  /** `create_publisher`: a new row holding exactly the input's fields. */
  function CreatePublisher(s: Publishers, input: Schemas.PublisherCreate): (r: Crud.Reply<Models.Publisher>)
    ensures r.body.Ok? && r.body.value.name == input.name
    ensures r.store.rows == s.rows[r.body.value.id := r.body.value]
    ensures Models.SequenceAhead(s) ==> r.body.value.id !in s.rows && Models.SequenceAhead(r.store)
    ensures KeyedById(s) ==> KeyedById(r.store)
  {
    Crud.Insert(s, id => Models.Publisher(id, input.name))
  }

  /** What PUT writes: every `PublisherCreate` field from the input, the id kept. */
  function Replace(p: Models.Publisher, input: Schemas.PublisherCreate): Models.Publisher {
    p.(name := input.name)
  }

  /** What PATCH writes: only the fields the input carries. */
  function Patch(p: Models.Publisher, input: Schemas.PublisherPatch): Models.Publisher {
    if input.name.Some? then p.(name := input.name.value) else p
  }

  /** `update_publisher`: 404 with nothing changed when the id is absent; otherwise
      the name is overwritten and the id and every other row are kept. */
  function UpdatePublisher(s: Publishers, id: int, input: Schemas.PublisherCreate): (r: Crud.Reply<Models.Publisher>)
    ensures r.body.Err? <==> id !in s.rows
    ensures r.body.Err? ==> r.store == s && r.body.error == Dependencies.RaiseNotFound("publisher")
    ensures r.body.Ok? ==> r.body.value == Models.Publisher(s.rows[id].id, input.name)
    ensures r.body.Ok? ==> r.store == Models.Store(s.rows[id := r.body.value], s.next)
    ensures KeyedById(s) ==> KeyedById(r.store)
  {
    Crud.Modify(s, id, Table, p => Replace(p, input))
  }

  /** `patch_publisher`: like PUT, but a None name is left as stored. */
  function PatchPublisher(s: Publishers, id: int, input: Schemas.PublisherPatch): (r: Crud.Reply<Models.Publisher>)
    ensures r.body.Err? <==> id !in s.rows
    ensures r.body.Err? ==> r.store == s && r.body.error == Dependencies.RaiseNotFound("publisher")
    ensures r.body.Ok? ==> r.body.value == Models.Publisher(s.rows[id].id, input.name.GetOr(s.rows[id].name))
    ensures r.body.Ok? ==> r.store == Models.Store(s.rows[id := r.body.value], s.next)
    ensures input.name.None? ==> r.store == s
    ensures KeyedById(s) ==> KeyedById(r.store)
  {
    Crud.Modify(s, id, Table, p => Patch(p, input))
  }

  /** `delete_publisher`: the key removed and the row returned as it was before;
      404 with nothing changed when absent. */
  function DeletePublisher(s: Publishers, id: int): (r: Crud.Reply<Models.Publisher>)
    ensures r.body.Err? <==> id !in s.rows
    ensures r.body.Err? ==> r.store == s && r.body.error == Dependencies.RaiseNotFound("publisher")
    ensures r.body.Ok? ==> r.body.value == s.rows[id] && r.store == Models.Store(s.rows - {id}, s.next)
    ensures KeyedById(s) ==> KeyedById(r.store)
  {
    Crud.Delete(s, id, Table)
  }

  /** A PATCH that supplies the name acts exactly as a PUT with that name. */
  lemma PatchWithNameIsUpdate(s: Publishers, id: int, name: string)
    ensures PatchPublisher(s, id, Schemas.PublisherPatch(Some(name))) == UpdatePublisher(s, id, Schemas.PublisherCreate(name))
  {
  }
}

=== FILE: schemas.dfy ===
/** Request and response shapes. Create and Patch schemas arrive as query
    parameters (they are taken with `Depends()`), so parsing one means reading
    named strings from the query and reporting every field that is missing or
    not an integer. */
module Schemas {
  import opened Wrappers
  import Text
  import Models

  /** One entry of an error body. The documented model carries `msg` and `type`;
      entries produced by validation also carry `loc`. */
  datatype ErrorDetails = ErrorDetails(loc: Option<seq<string>>, msg: string, kind: string)

  /** One error reported by pydantic's validation: where, what, and which kind. */
  datatype FieldError = FieldError(loc: seq<string>, msg: string, kind: string)

  /** The query string, already split into names and values. */
  type Query = map<string, string>

  function Missing(name: string): FieldError {
    FieldError(["query", name], "field required", "value_error.missing")
  }

  function NotAnInteger(name: string): FieldError {
    FieldError(["query", name], "value is not a valid integer", "type_error.integer")
  }

  /** A `str` field without a default: it must be present. */
  function RequiredText(q: Query, name: string): (r: Result<string, FieldError>)
    ensures r.Ok? <==> name in q
    ensures r.Ok? ==> r.value == q[name]
    ensures r.Err? ==> r.error == Missing(name)
  {
    if name in q then Ok(q[name]) else Err(Missing(name))
  }

  /** An `Optional[str]` field: absent means None. */
  function OptionalText(q: Query, name: string): (r: Option<string>)
    ensures r.Some? <==> name in q
    ensures r.Some? ==> r.value == q[name]
  {
    if name in q then Some(q[name]) else None
  }

  /** An `int` field without a default: present and an integer. */
  function RequiredInteger(q: Query, name: string): (r: Result<int, FieldError>)
    ensures r.Ok? <==> name in q && Text.ParseInt(q[name]).Some?
    ensures r.Ok? ==> Text.ParseInt(q[name]) == Some(r.value)
    ensures r.Err? ==> r.error == (if name in q then NotAnInteger(name) else Missing(name))
  {
    if name !in q then Err(Missing(name))
    else match Text.ParseInt(q[name])
      case Some(v) => Ok(v)
      case None => Err(NotAnInteger(name))
  }

  /** An `Optional[int]` field: absent means None, present must be an integer. */
  function OptionalInteger(q: Query, name: string): (r: Result<Option<int>, FieldError>)
    ensures r.Ok? <==> name !in q || Text.ParseInt(q[name]).Some?
    ensures r.Ok? && name !in q ==> r.value == None
    ensures r.Ok? && name in q ==> r.value == Text.ParseInt(q[name])
    ensures r.Err? ==> r.error == NotAnInteger(name)
  {
    if name !in q then Ok(None)
    else match Text.ParseInt(q[name])
      case Some(v) => Ok(Some(v))
      case None => Err(NotAnInteger(name))
  }

  function Errors<T>(r: Result<T, FieldError>): seq<FieldError> {
    if r.Err? then [r.error] else []
  }

  datatype PublisherCreate = PublisherCreate(name: string)

  datatype PublisherPatch = PublisherPatch(name: Option<string>)

  datatype AuthorCreate = AuthorCreate(firstName: string, lastName: string, middleName: Option<string>)

  datatype AuthorPatch = AuthorPatch(firstName: Option<string>, lastName: Option<string>, middleName: Option<string>)

  datatype BookCreate = BookCreate(
    title: string,
    year: int,
    description: Option<string>,
    pages: Option<int>,
    edition: Option<int>,
    publisherId: int)

  /** `PublisherCreate`: `name` is required. */
  function ParsePublisherCreate(q: Query): (r: Result<PublisherCreate, seq<FieldError>>)
    ensures r.Ok? <==> "name" in q
    ensures r.Ok? ==> r.value.name == q["name"]
    ensures r.Err? ==> r.error == [Missing("name")]
  {
    match RequiredText(q, "name")
    case Ok(name) => Ok(PublisherCreate(name))
    case Err(e) => Err([e])
  }

  /** `PublisherPatch`: `name` is optional, so parsing never fails. */
  function ParsePublisherPatch(q: Query): (r: PublisherPatch)
    ensures r.name.Some? <==> "name" in q
    ensures r.name.Some? ==> r.name.value == q["name"]
  {
    PublisherPatch(OptionalText(q, "name"))
  }

  /** `AuthorCreate`: first and last names are required, `middle_name` defaults to None. */
  function ParseAuthorCreate(q: Query): (r: Result<AuthorCreate, seq<FieldError>>)
    ensures r.Ok? <==> "first_name" in q && "last_name" in q
    ensures r.Ok? ==> r.value.firstName == q["first_name"] && r.value.lastName == q["last_name"]
    ensures r.Ok? ==> (r.value.middleName.Some? <==> "middle_name" in q)
    ensures r.Ok? && "middle_name" in q ==> r.value.middleName.value == q["middle_name"]
    ensures r.Err? ==> (Missing("first_name") in r.error <==> "first_name" !in q)
    ensures r.Err? ==> (Missing("last_name") in r.error <==> "last_name" !in q)
    ensures r.Err? ==> |r.error| <= 2
  {
    var first := RequiredText(q, "first_name");
    var last := RequiredText(q, "last_name");
    if first.Ok? && last.Ok? then Ok(AuthorCreate(first.value, last.value, OptionalText(q, "middle_name")))
    else Err(Errors(first) + Errors(last))
  }

  /** `AuthorPatch`: every name is optional, so parsing never fails. */
  function ParseAuthorPatch(q: Query): (r: AuthorPatch)
    ensures r.firstName.Some? <==> "first_name" in q
    ensures r.lastName.Some? <==> "last_name" in q
    ensures r.middleName.Some? <==> "middle_name" in q
  {
    AuthorPatch(OptionalText(q, "first_name"), OptionalText(q, "last_name"), OptionalText(q, "middle_name"))
  }

  /** A query field holds a well-formed integer when it is present. */
  predicate IntegerIfPresent(q: Query, name: string) {
    name in q ==> Text.ParseInt(q[name]).Some?
  }

  /** `BookCreate`: title, year and publisher_id are required; description, pages
      and edition default to None. Errors are listed in field order. */
  function ParseBookCreate(q: Query): (r: Result<BookCreate, seq<FieldError>>)
    ensures r.Ok? <==>
      && "title" in q
      && "year" in q && IntegerIfPresent(q, "year")
      && "publisher_id" in q && IntegerIfPresent(q, "publisher_id")
      && IntegerIfPresent(q, "pages") && IntegerIfPresent(q, "edition")
    ensures r.Ok? ==> r.value.title == q["title"]
    ensures r.Ok? ==> Text.ParseInt(q["year"]) == Some(r.value.year)
    ensures r.Ok? ==> Text.ParseInt(q["publisher_id"]) == Some(r.value.publisherId)
    ensures r.Ok? ==> r.value.description == (if "description" in q then Some(q["description"]) else None)
    ensures r.Ok? ==> r.value.pages == (if "pages" in q then Text.ParseInt(q["pages"]) else None)
    ensures r.Ok? ==> r.value.edition == (if "edition" in q then Text.ParseInt(q["edition"]) else None)
  {
    var title := RequiredText(q, "title");
    var year := RequiredInteger(q, "year");
    var pages := OptionalInteger(q, "pages");
    var edition := OptionalInteger(q, "edition");
    var publisherId := RequiredInteger(q, "publisher_id");
    if title.Ok? && year.Ok? && pages.Ok? && edition.Ok? && publisherId.Ok? then
      Ok(BookCreate(title.value, year.value, OptionalText(q, "description"), pages.value, edition.value, publisherId.value))
    else
      Err(Errors(title) + Errors(year) + Errors(pages) + Errors(edition) + Errors(publisherId))
  }

  /** A failed `BookCreate` reports each missing required field, and only query locations. */
  lemma BookCreateErrors(q: Query)
    requires ParseBookCreate(q).Err?
    ensures Missing("title") in ParseBookCreate(q).error <==> "title" !in q
    ensures Missing("year") in ParseBookCreate(q).error <==> "year" !in q
    ensures Missing("publisher_id") in ParseBookCreate(q).error <==> "publisher_id" !in q
    ensures forall e :: e in ParseBookCreate(q).error ==> |e.loc| == 2 && e.loc[0] == "query"
  {
    var title := RequiredText(q, "title");
    var year := RequiredInteger(q, "year");
    var pages := OptionalInteger(q, "pages");
    var edition := OptionalInteger(q, "edition");
    var publisherId := RequiredInteger(q, "publisher_id");
    var errs := Errors(title) + Errors(year) + Errors(pages) + Errors(edition) + Errors(publisherId);
    assert ParseBookCreate(q).error == errs;
    forall e | e in errs
      ensures |e.loc| == 2 && e.loc[0] == "query"
    {
    }
  }

  /** `schemas.Book`: the scalar book fields without `publisher_id`. */
  datatype BookOut = BookOut(
    id: int,
    title: string,
    year: int,
    description: Option<string>,
    pages: Option<int>,
    edition: Option<int>)

  /** Reads a book record through `orm_mode`. */
  function ToBookOut(b: Models.Book): (r: BookOut)
    ensures r.id == b.id && r.title == b.title && r.year == b.year
    ensures r.description == b.description && r.pages == b.pages && r.edition == b.edition
  {
    BookOut(b.id, b.title, b.year, b.description, b.pages, b.edition)
  }

  /** The list constraints pydantic checks: too few items first, then duplicates. */
  datatype ListViolation = TooFewItems(limit: nat) | DuplicateItems

  function CheckList<T(==)>(items: seq<T>, minItems: nat, unique: bool): (r: Result<seq<T>, ListViolation>)
    ensures r.Ok? <==> |items| >= minItems && (unique ==> Models.NoDuplicates(items))
    ensures r.Ok? ==> r.value == items
    ensures r.Err? && |items| < minItems ==> r.error == TooFewItems(minItems)
    ensures r.Err? && |items| >= minItems ==> r.error == DuplicateItems
  {
    if |items| < minItems then Err(TooFewItems(minItems))
    else if unique && !Models.NoDuplicates(items) then Err(DuplicateItems)
    else Ok(items)
  }

  /** `Book_Authors`: at least one author and no author twice. */
  datatype BookAuthors = BookAuthors(book: BookOut, authors: seq<Models.Author>)

  function MakeBookAuthors(book: BookOut, authors: seq<Models.Author>): (r: Result<BookAuthors, ListViolation>)
    ensures r.Ok? <==> |authors| >= 1 && Models.NoDuplicates(authors)
    ensures r.Ok? ==> r.value.authors == authors && r.value.book == book
  {
    match CheckList(authors, 1, true)
    case Ok(a) => Ok(BookAuthors(book, a))
    case Err(e) => Err(e)
  }

  /** `Author_Books`: an author and a duplicate-free list of books, empty by default. */
  datatype AuthorBooks = AuthorBooks(author: Models.Author, books: seq<BookOut>)

  function MakeAuthorBooks(author: Models.Author, books: seq<BookOut>): (r: Result<AuthorBooks, ListViolation>)
    ensures r.Ok? <==> Models.NoDuplicates(books)
    ensures r.Ok? ==> r.value.books == books && r.value.author == author
  {
    match CheckList(books, 0, true)
    case Ok(b) => Ok(AuthorBooks(author, b))
    case Err(e) => Err(e)
  }

  /** `Publisher_Books`: a publisher and a duplicate-free list of books, empty by default. */
  datatype PublisherBooks = PublisherBooks(publisher: Models.Publisher, books: seq<BookOut>)

  function MakePublisherBooks(publisher: Models.Publisher, books: seq<BookOut>): (r: Result<PublisherBooks, ListViolation>)
    ensures r.Ok? <==> Models.NoDuplicates(books)
    ensures r.Ok? ==> r.value.books == books && r.value.publisher == publisher
  {
    match CheckList(books, 0, true)
    case Ok(b) => Ok(PublisherBooks(publisher, b))
    case Err(e) => Err(e)
  }

  /** The empty list is the default and always passes. */
  lemma EmptyBookListAccepted(author: Models.Author, publisher: Models.Publisher)
    ensures MakeAuthorBooks(author, []).Ok?
    ensures MakePublisherBooks(publisher, []).Ok?
  {
  }

  /** A book without authors cannot be shown as `Book_Authors`. */
  lemma BookWithoutAuthorsRejected(book: BookOut)
    ensures MakeBookAuthors(book, []) == Err(TooFewItems(1))
  {
  }
  /** `Book_All`: a book with its authors (as `Book_Authors` demands) and its
      publisher, which is required rather than optional. */
  datatype BookAll = BookAll(book: BookOut, authors: seq<Models.Author>, publisher: Models.Publisher)

  /** Why a `Book_All` response fails validation: one entry per failing field. */
  datatype BookAllViolation = PublisherMissing | AuthorsInvalid(violation: ListViolation)

  /** Validation of `Book_All` collects the errors of every field: `publisher`
      first, then `authors`. */
  function MakeBookAll(book: BookOut, authors: seq<Models.Author>, publisher: Option<Models.Publisher>): (r: Result<BookAll, seq<BookAllViolation>>)
    ensures r.Ok? <==> publisher.Some? && MakeBookAuthors(book, authors).Ok?
    ensures r.Ok? ==> r.value == BookAll(book, authors, publisher.value)
    ensures r.Err? ==> (PublisherMissing in r.error <==> publisher.None?)
    ensures r.Err? ==> forall v :: AuthorsInvalid(v) in r.error <==> MakeBookAuthors(book, authors) == Err(v)
  {
    var publisherErrors := if publisher.None? then [PublisherMissing] else [];
    var authorErrors := match MakeBookAuthors(book, authors)
      case Ok(_) => []
      case Err(v) => [AuthorsInvalid(v)];
    if publisherErrors + authorErrors == [] then Ok(BookAll(book, authors, publisher.value))
    else Err(publisherErrors + authorErrors)
  }
}

=== FILE: text.dfy ===
/** String helpers with the meaning of the Python built-ins the application uses:
    `str.join`, `str.replace(c, "")`, `str(int)`, `int(str)` and list rendering. */
module Text {
  import opened Wrappers

  /** `sep.join(parts)`: the first part opens the result and the last part closes it. */
  function Join(parts: seq<string>, sep: string): (r: string)
    ensures |parts| == 0 ==> r == ""
    ensures |parts| >= 1 ==> |parts[0]| <= |r| && r[..|parts[0]|] == parts[0]
    decreases |parts|
  {
    if |parts| == 0 then ""
    else if |parts| == 1 then parts[0]
    else parts[0] + sep + Join(parts[1..], sep)
  }

  /** The last part closes the joined string. */
  lemma {:induction false} JoinEndsWithLast(parts: seq<string>, sep: string)
    requires |parts| >= 1
    ensures var r := Join(parts, sep);
      |parts[|parts| - 1]| <= |r| && r[|r| - |parts[|parts| - 1]|..] == parts[|parts| - 1]
    decreases |parts|
  {
    if |parts| >= 2 {
      JoinEndsWithLast(parts[1..], sep);
      assert parts[1..][|parts[1..]| - 1] == parts[|parts| - 1];
    }
  }

  /** `s.replace(c, "")`: every occurrence of `c` deleted, everything else kept in order. */
  function Remove(s: string, c: char): (r: string)
    ensures c !in r
    ensures |r| <= |s|
    decreases |s|
  {
    if |s| == 0 then ""
    else (if s[0] == c then "" else [s[0]]) + Remove(s[1..], c)
  }

  /** Deleting a character distributes over concatenation. */
  lemma {:induction false} RemoveConcat(a: string, b: string, c: char)
    ensures Remove(a + b, c) == Remove(a, c) + Remove(b, c)
    decreases |a|
  {
    if |a| == 0 {
      assert a + b == b;
    } else {
      var ab := a + b;
      assert ab[0] == a[0];
      assert ab[1..] == a[1..] + b;
      var h := if a[0] == c then "" else [a[0]];
      assert Remove(ab, c) == h + Remove(a[1..] + b, c);
      RemoveConcat(a[1..], b, c);
      assert Remove(a, c) == h + Remove(a[1..], c);
    }
  }

  /** Deleting a character adds no other character. */
  lemma {:induction false} RemoveOnlyDeletes(s: string, c: char, x: char)
    requires x in Remove(s, c)
    ensures x in s && x != c
    decreases |s|
  {
    var h := if s[0] == c then "" else [s[0]];
    if x in h {
    } else {
      RemoveOnlyDeletes(s[1..], c, x);
    }
  }

  /** A character absent before a deletion is absent after it. */
  lemma RemoveKeepsAbsent(s: string, c: char, x: char)
    requires x !in s
    ensures x !in Remove(s, c)
  {
    if x in Remove(s, c) {
      RemoveOnlyDeletes(s, c, x);
    }
  }

  /** Deleting a character that does not occur changes nothing. */
  lemma {:induction false} RemoveAbsent(s: string, c: char)
    requires c !in s
    ensures Remove(s, c) == s
    decreases |s|
  {
    if |s| > 0 {
      assert s == [s[0]] + s[1..];
      RemoveAbsent(s[1..], c);
    }
  }

  predicate IsDigit(c: char) {
    '0' <= c <= '9'
  }

  predicate IsDigits(s: string) {
    forall i :: 0 <= i < |s| ==> IsDigit(s[i])
  }

  function DigitChar(d: nat): (c: char)
    requires d < 10
    ensures IsDigit(c)
  {
    ('0' as int + d) as char
  }

  /** The decimal rendering of a natural number, as Python's `str` writes it:
      no sign, no leading zeros. */
  function NatToString(n: nat): (r: string)
    ensures |r| >= 1 && IsDigits(r)
    ensures |r| > 1 ==> r[0] != '0'
    decreases n
  {
    if n < 10 then [DigitChar(n)]
    else NatToString(n / 10) + [DigitChar(n % 10)]
  }

  /** The number a string of decimal digits denotes. */
  function DigitsValue(s: string): nat
    requires IsDigits(s)
    decreases |s|
  {
    if |s| == 0 then 0
    else DigitsValue(s[..|s| - 1]) * 10 + (s[|s| - 1] as int - '0' as int)
  }

  lemma {:induction false} NatToStringRoundTrip(n: nat)
    ensures DigitsValue(NatToString(n)) == n
    decreases n
  {
    if n >= 10 {
      var s := NatToString(n / 10);
      var r := s + [DigitChar(n % 10)];
      assert r[..|r| - 1] == s;
      NatToStringRoundTrip(n / 10);
    }
  }

  /** `str(i)` for a Python `int`. */
  function IntToString(i: int): (r: string)
    ensures |r| >= 1
    ensures forall k :: 0 <= k < |r| ==> IsDigit(r[k]) || (k == 0 && r[k] == '-')
    ensures r[0] == '-' <==> i < 0
    ensures i >= 0 && |r| > 1 ==> r[0] != '0'
    ensures i < 0 ==> |r| >= 2 && r[1] != '0'
  {
    if i < 0 then "-" + NatToString(-i) else NatToString(i)
  }

  /** `int(s)` restricted to an optional sign followed by at least one digit;
      None stands for the `ValueError` Python raises. */
  function ParseInt(s: string): (r: Option<int>)
    ensures r.Some? <==>
      (|s| >= 1 && IsDigits(s)) || (|s| >= 2 && (s[0] == '+' || s[0] == '-') && IsDigits(s[1..]))
    ensures r.Some? && s[0] == '-' ==> r.value <= 0
    ensures r.Some? && s[0] != '-' ==> r.value >= 0
  {
    if |s| >= 2 && s[0] == '-' && IsDigits(s[1..]) then
      var magnitude: int := DigitsValue(s[1..]);
      Some(-magnitude)
    else if |s| >= 2 && s[0] == '+' && IsDigits(s[1..]) then Some(DigitsValue(s[1..]))
    else if |s| >= 1 && IsDigits(s) then Some(DigitsValue(s))
    else None
  }

  /** Parsing inverts rendering. */
  lemma IntToStringRoundTrip(i: int)
    ensures ParseInt(IntToString(i)) == Some(i)
  {
    if i < 0 {
      var r := IntToString(i);
      assert r[1..] == NatToString(-i);
      NatToStringRoundTrip(-i);
    } else {
      NatToStringRoundTrip(i);
    }
  }

  /** Leading zeros do not change a digit string's value. */
  lemma {:induction false} DigitsValueLeadingZero(d: string)
    requires IsDigits(d)
    ensures IsDigits("0" + d) && DigitsValue("0" + d) == DigitsValue(d)
    decreases |d|
  {
    var z := "0" + d;
    if |d| > 0 {
      assert z[..|z| - 1] == "0" + d[..|d| - 1];
      DigitsValueLeadingZero(d[..|d| - 1]);
    }
  }

  /** `int()` reads `+d` and `0d` as `d`, and `-d` as its negation. */
  lemma ParseIntSignsAndZeros(d: string)
    requires |d| >= 1 && IsDigits(d)
    ensures ParseInt(d).Some?
    ensures ParseInt("+" + d) == ParseInt(d)
    ensures ParseInt("-" + d) == Some(-ParseInt(d).value)
    ensures ParseInt("0" + d) == ParseInt(d)
  {
    assert ("+" + d)[1..] == d;
    assert ("-" + d)[1..] == d;
    DigitsValueLeadingZero(d);
  }

  function MapToString(ids: seq<int>): (r: seq<string>)
    ensures |r| == |ids|
    ensures forall k :: 0 <= k < |ids| ==> r[k] == IntToString(ids[k])
  {
    if |ids| == 0 then [] else [IntToString(ids[0])] + MapToString(ids[1..])
  }

  /** Python's rendering of a `list[int]`: `[1, 2, 3]`, and `[]` when empty. */
  function RenderIntList(ids: seq<int>): (r: string)
    ensures |r| >= 2 && r[0] == '[' && r[|r| - 1] == ']'
    ensures r == "[]" <==> ids == []
    ensures ids != [] ==> r == "[" + Join(MapToString(ids), ", ") + "]"
  {
    if ids == [] then "[]"
    else
      JoinNonEmpty(MapToString(ids), ", ");
      "[" + Join(MapToString(ids), ", ") + "]"
  }

  /** Index of the first `c` in `s`, or `|s|` when there is none. */
  function IndexOf(s: string, c: char): (i: nat)
    ensures i <= |s|
    ensures i < |s| ==> s[i] == c
    ensures forall j :: 0 <= j < i ==> s[j] != c
    decreases |s|
  {
    if |s| == 0 then 0
    else if s[0] == c then 0
    else 1 + IndexOf(s[1..], c)
  }

  /** Reads back the items of a rendered list, without the brackets: `1, 2, 3`. */
  function ParseIntItems(s: string): Option<seq<int>>
    decreases |s|
  {
    var i := IndexOf(s, ',');
    if i == |s| then
      match ParseInt(s)
      case Some(v) => Some([v])
      case None => None
    else if i + 1 < |s| && s[i + 1] == ' ' then
      match ParseInt(s[..i])
      case None => None
      case Some(v) =>
        match ParseIntItems(s[i + 2..])
        case None => None
        case Some(vs) => Some([v] + vs)
    else None
  }

  /** Reads back a rendered `list[int]`. */
  function ParseIntList(s: string): Option<seq<int>> {
    if |s| >= 2 && s[0] == '[' && s[|s| - 1] == ']' then
      var inner := s[1..|s| - 1];
      if inner == "" then Some([]) else ParseIntItems(inner)
    else None
  }

  lemma IndexOfExact(s: string, c: char, i: nat)
    requires i <= |s|
    requires i < |s| ==> s[i] == c
    requires forall j :: 0 <= j < i ==> s[j] != c
    ensures IndexOf(s, c) == i
  {
  }

  lemma NoCommaInIntToString(i: int)
    ensures ',' !in IntToString(i)
  {
    var r := IntToString(i);
    forall k | 0 <= k < |r|
      ensures r[k] != ','
    {
    }
  }

  /** One step of reading items: a comma-free integer, `", "`, then the rest. */
  lemma ItemsStep(head: string, tail: string, v: int, vs: seq<int>)
    requires ',' !in head
    requires ParseInt(head) == Some(v)
    requires ParseIntItems(tail) == Some(vs)
    ensures ParseIntItems(head + ", " + tail) == Some([v] + vs)
  {
    var s := head + ", " + tail;
    forall j | 0 <= j < |head|
      ensures s[j] != ','
    {
      assert s[j] == head[j];
    }
    IndexOfExact(s, ',', |head|);
    assert s[..|head|] == head;
    assert s[|head| + 2..] == tail;
  }

  /** The last item: a comma-free integer on its own. */
  lemma ItemsSingle(head: string, v: int)
    requires ',' !in head
    requires ParseInt(head) == Some(v)
    ensures ParseIntItems(head) == Some([v])
  {
    IndexOfExact(head, ',', |head|);
  }

  lemma {:induction false} ItemsRoundTrip(ids: seq<int>)
    requires |ids| >= 1
    ensures ParseIntItems(Join(MapToString(ids), ", ")) == Some(ids)
    decreases |ids|
  {
    var head := IntToString(ids[0]);
    NoCommaInIntToString(ids[0]);
    IntToStringRoundTrip(ids[0]);
    var strs := MapToString(ids);
    if |ids| == 1 {
      assert Join(strs, ", ") == head;
      ItemsSingle(head, ids[0]);
      assert ids == [ids[0]];
    } else {
      var tail := Join(strs[1..], ", ");
      assert Join(strs, ", ") == head + ", " + tail;
      assert strs[1..] == MapToString(ids[1..]);
      ItemsRoundTrip(ids[1..]);
      ItemsStep(head, tail, ids[0], ids[1..]);
      assert [ids[0]] + ids[1..] == ids;
    }
  }

  /** Reading back a rendered list gives the original list, in order. */
  lemma IntListRoundTrip(ids: seq<int>)
    ensures ParseIntList(RenderIntList(ids)) == Some(ids)
  {
    var s := RenderIntList(ids);
    var inner := Join(MapToString(ids), ", ");
    assert s[1..|s| - 1] == inner;
    if |ids| == 0 {
    } else {
      ItemsRoundTrip(ids);
      assert |IntToString(ids[0])| >= 1;
      JoinNonEmpty(MapToString(ids), ", ");
    }
  }

  lemma JoinNonEmpty(parts: seq<string>, sep: string)
    requires |parts| >= 1 && |parts[0]| >= 1
    ensures Join(parts, sep) != ""
  {
    if |parts| > 1 {
      assert |Join(parts, sep)| >= |parts[0]|;
    }
  }
}

=== FILE: views.dfy ===
/** The routers' responses read from the whole library: `Book_All`,
    `Author_Books` and `Publisher_Books` with their related records loaded, and
    the table invariants the write endpoints keep. */
module Views {
  import opened Wrappers
  import Models
  import Schemas
  import Dependencies
  import Crud
  import PublishersRouter
  import AuthorsRouter
  import BooksRouter

  /** A read endpoint's outcome: the validated body, the 404 raised before it,
      or the response model refusing the record (a server error). */
  datatype Response<T, V> = Shown(value: T) | NotFound(error: Dependencies.HttpException) | Rejected(violations: V)

  /** The rows stored under `ids`, in order; an id without a row loads nothing. */
  function RowsFor<R>(s: Models.Store<R>, ids: seq<int>): (r: seq<R>)
    ensures |r| <= |ids|
    ensures (forall i :: 0 <= i < |ids| ==> ids[i] in s.rows) ==>
      |r| == |ids| && forall i :: 0 <= i < |ids| ==> r[i] == s.rows[ids[i]]
  {
    if ids == [] then []
    else (if ids[0] in s.rows then [s.rows[ids[0]]] else []) + RowsFor(s, ids[1..])
  }

  function ToBookOuts(books: seq<Models.Book>): (r: seq<Schemas.BookOut>)
    ensures |r| == |books| && forall i :: 0 <= i < |books| ==> r[i] == Schemas.ToBookOut(books[i])
  {
    if books == [] then [] else [Schemas.ToBookOut(books[0])] + ToBookOuts(books[1..])
  }

  /** `Book.authors`, loaded through the association table. */
  function AuthorsOf(db: Models.Library, bookId: int): seq<Models.Author> {
    RowsFor(db.authors, Models.AuthorIdsOf(db.links, bookId))
  }

  /** `Author.books`, loaded through the association table. */
  function BooksOfAuthor(db: Models.Library, authorId: int): seq<Schemas.BookOut> {
    ToBookOuts(RowsFor(db.books, Models.BookIdsOf(db.links, authorId)))
  }

  /** `Publisher.books`, loaded through the books' foreign key. */
  function BooksOfPublisher(db: Models.Library, publisherId: int): seq<Schemas.BookOut> {
    ToBookOuts(RowsFor(db.books, Models.PublisherBookIds(db, publisherId)))
  }

  /** `Book.publisher`: the row the foreign key names, if any. */
  function PublisherOf(db: Models.Library, b: Models.Book): (r: Option<Models.Publisher>)
    ensures r.Some? <==> b.publisherId.Some? && b.publisherId.value in db.publishers.rows
    ensures r.Some? ==> r.value == db.publishers.rows[b.publisherId.value]
  {
    if b.publisherId.Some? && b.publisherId.value in db.publishers.rows
    then Some(db.publishers.rows[b.publisherId.value]) else None
  }

  /** `GET /books/{id}` with `response_model=Book_All`. */
  function ShowBook(db: Models.Library, id: int): (r: Response<Schemas.BookAll, seq<Schemas.BookAllViolation>>)
    ensures r.NotFound? <==> id !in db.books.rows
    ensures r.NotFound? ==> r.error == Dependencies.RaiseNotFound("book")
    ensures r.Shown? ==> r.value.book == Schemas.ToBookOut(db.books.rows[id]) && r.value.authors == AuthorsOf(db, id)
    ensures r.Shown? ==> Some(r.value.publisher) == PublisherOf(db, db.books.rows[id])
  {
    match BooksRouter.ReadBook(db.books, id)
    case Err(e) => NotFound(e)
    case Ok(b) =>
      match Schemas.MakeBookAll(Schemas.ToBookOut(b), AuthorsOf(db, id), PublisherOf(db, b))
      case Ok(v) => Shown(v)
      case Err(vs) => Rejected(vs)
  }

  /** `GET /authors/{id}` with `response_model=Author_Books`. */
  function ShowAuthor(db: Models.Library, id: int): (r: Response<Schemas.AuthorBooks, Schemas.ListViolation>)
    ensures r.NotFound? <==> id !in db.authors.rows
    ensures r.NotFound? ==> r.error == Dependencies.RaiseNotFound("author")
    ensures r.Shown? ==> r.value == Schemas.AuthorBooks(db.authors.rows[id], BooksOfAuthor(db, id))
  {
    match AuthorsRouter.ReadAuthor(db.authors, id)
    case Err(e) => NotFound(e)
    case Ok(a) =>
      match Schemas.MakeAuthorBooks(a, BooksOfAuthor(db, id))
      case Ok(v) => Shown(v)
      case Err(v) => Rejected(v)
  }

  /** `GET /publishers/{id}` with `response_model=Publisher_Books`. */
  function ShowPublisher(db: Models.Library, id: int): (r: Response<Schemas.PublisherBooks, Schemas.ListViolation>)
    ensures r.NotFound? <==> id !in db.publishers.rows
    ensures r.NotFound? ==> r.error == Dependencies.RaiseNotFound("publisher")
    ensures r.Shown? ==> r.value == Schemas.PublisherBooks(db.publishers.rows[id], BooksOfPublisher(db, id))
  {
    match PublishersRouter.ReadPublisher(db.publishers, id)
    case Err(e) => NotFound(e)
    case Ok(p) =>
      match Schemas.MakePublisherBooks(p, BooksOfPublisher(db, id))
      case Ok(v) => Shown(v)
      case Err(v) => Rejected(v)
  }

  /** `DELETE /publishers/{id}`: the row goes, and the body is the
      `Publisher_Books` the library showed just before, books included. */
  function DeletePublisher(db: Models.Library, id: int): (r: (Models.Library, Response<Schemas.PublisherBooks, Schemas.ListViolation>))
    ensures r.1 == ShowPublisher(db, id)
    ensures r.0 == db.(publishers := Models.Store(db.publishers.rows - {id}, db.publishers.next))
    ensures r.1.NotFound? ==> r.0 == db
  {
    var reply := PublishersRouter.DeletePublisher(db.publishers, id);
    (db.(publishers := reply.store), ShowPublisher(db, id))
  }

  /** `DELETE /authors/{id}`: the row goes, and the body is the `Author_Books`
      the library showed just before, books included. */
  function DeleteAuthor(db: Models.Library, id: int): (r: (Models.Library, Response<Schemas.AuthorBooks, Schemas.ListViolation>))
    ensures r.1 == ShowAuthor(db, id)
    ensures r.0 == db.(authors := Models.Store(db.authors.rows - {id}, db.authors.next))
    ensures r.1.NotFound? ==> r.0 == db
  {
    var reply := AuthorsRouter.DeleteAuthor(db.authors, id);
    (db.(authors := reply.store), ShowAuthor(db, id))
  }

  /** After a DELETE the same GET answers 404. */
  lemma ShowAfterDelete(db: Models.Library, id: int)
    ensures ShowPublisher(DeletePublisher(db, id).0, id) == NotFound(Dependencies.RaiseNotFound("publisher"))
    ensures ShowAuthor(DeleteAuthor(db, id).0, id) == NotFound(Dependencies.RaiseNotFound("author"))
  {
  }

  /** Distinct ids of rows stored under their own ids give distinct book bodies. */
  lemma {:induction false} DistinctBooksShowDistinct(s: Models.Store<Models.Book>, ids: seq<int>)
    requires BooksRouter.KeyedById(s)
    requires forall i :: 0 <= i < |ids| ==> ids[i] in s.rows
    requires Models.NoDuplicates(ids)
    ensures Models.NoDuplicates(ToBookOuts(RowsFor(s, ids)))
  {
    var r := ToBookOuts(RowsFor(s, ids));
    forall i, j | 0 <= i < j < |r|
      ensures r[i] != r[j]
    {
      assert r[i].id == ids[i] && r[j].id == ids[j];
    }
  }

  /** On a well-formed library an existing author is always shown: no book
      appears twice in its list. */
  lemma AuthorAlwaysShown(db: Models.Library, id: int)
    requires Models.WellFormed(db) && id in db.authors.rows
    ensures ShowAuthor(db, id).Shown?
  {
    var ids := Models.BookIdsOf(db.links, id);
    Models.BookIdsUnique(db.links, id);
    forall i | 0 <= i < |ids| ensures ids[i] in db.books.rows {
      assert ids[i] in ids;
      var k :| 0 <= k < |db.links| && db.links[k] == Models.AuthorBookAssociation(ids[i], id);
    }
    DistinctBooksShowDistinct(db.books, ids);
  }

  /** On a well-formed library an existing publisher is always shown. */
  lemma PublisherAlwaysShown(db: Models.Library, id: int)
    requires Models.WellFormed(db) && id in db.publishers.rows
    ensures ShowPublisher(db, id).Shown?
  {
    var ids := Models.PublisherBookIds(db, id);
    Models.PublisherBooksExact(db, id);
    forall i | 0 <= i < |ids| ensures ids[i] in db.books.rows {
      assert ids[i] in ids;
    }
    DistinctBooksShowDistinct(db.books, ids);
  }

  /** On a well-formed library an existing book is shown exactly when it has at
      least one author and a publisher. */
  lemma BookShownIff(db: Models.Library, id: int)
    requires Models.WellFormed(db) && id in db.books.rows
    ensures ShowBook(db, id).Shown? <==>
      Models.AuthorIdsOf(db.links, id) != [] && db.books.rows[id].publisherId.Some?
  {
    var ids := Models.AuthorIdsOf(db.links, id);
    Models.AuthorIdsUnique(db.links, id);
    forall i | 0 <= i < |ids| ensures ids[i] in db.authors.rows {
      assert ids[i] in ids;
      var k :| 0 <= k < |db.links| && db.links[k] == Models.AuthorBookAssociation(id, ids[i]);
    }
    var authors := AuthorsOf(db, id);
    assert Models.NoDuplicates(authors) by {
      forall i, j | 0 <= i < j < |authors| ensures authors[i] != authors[j] {
        assert authors[i].id == ids[i] && authors[j].id == ids[j];
      }
    }
  }

  /** Nothing links to an id the book sequence has not handed out yet. */
  lemma UnissuedBookHasNoAuthors(db: Models.Library)
    requires Models.WellFormed(db)
    ensures Models.AuthorIdsOf(db.links, db.books.next) == []
  {
    UnlinkedBookHasNoAuthors(db.links, db.books.next);
  }

  /** A book no association row names has no authors. */
  lemma {:induction false} UnlinkedBookHasNoAuthors(links: seq<Models.AuthorBookAssociation>, bookId: int)
    requires forall i :: 0 <= i < |links| ==> links[i].bookId != bookId
    ensures Models.AuthorIdsOf(links, bookId) == []
    decreases |links|
  {
    if links != [] {
      UnlinkedBookHasNoAuthors(links[1..], bookId);
    }
  }

  /** `POST /books/`, once committed, stores a book no author is linked to yet, so
      reading it back as `Book_All` fails validation on `authors`. */
  lemma CreatedBookNotShown(db: Models.Library, input: Schemas.BookCreate)
    requires Models.WellFormed(db)
    ensures var c := CreateBook(db, input);
      c.1.Written? ==>
        ShowBook(c.0, c.1.book.id).Rejected? &&
        Schemas.AuthorsInvalid(Schemas.TooFewItems(1)) in ShowBook(c.0, c.1.book.id).violations
  {
    var c := CreateBook(db, input);
    if c.1.Written? {
      UnissuedBookHasNoAuthors(db);
      assert AuthorsOf(c.0, c.1.book.id) == [];
    }
  }

  /** Writes to the publishers table keep the library's invariants. */
  lemma PublisherWritesKeepInvariants(db: Models.Library, id: int, c: Schemas.PublisherCreate, p: Schemas.PublisherPatch)
    requires Models.WellFormed(db)
    ensures Models.WellFormed(db.(publishers := PublishersRouter.CreatePublisher(db.publishers, c).store))
    ensures Models.WellFormed(db.(publishers := PublishersRouter.UpdatePublisher(db.publishers, id, c).store))
    ensures Models.WellFormed(db.(publishers := PublishersRouter.PatchPublisher(db.publishers, id, p).store))
  {
  }

  /** Writes to the authors table keep the library's invariants. */
  lemma AuthorWritesKeepInvariants(db: Models.Library, id: int, c: Schemas.AuthorCreate, p: Schemas.AuthorPatch)
    requires Models.WellFormed(db)
    ensures Models.WellFormed(db.(authors := AuthorsRouter.CreateAuthor(db.authors, c).store))
    ensures Models.WellFormed(db.(authors := AuthorsRouter.UpdateAuthor(db.authors, id, c).store))
    ensures Models.WellFormed(db.(authors := AuthorsRouter.PatchAuthor(db.authors, id, p).store))
  {
  }

  /** A created book keeps the invariants exactly when its publisher exists: the
      router stores the id unchecked and only the foreign key could object. */
  lemma CreateBookKeepsInvariantsIff(db: Models.Library, input: Schemas.BookCreate)
    requires Models.WellFormed(db)
    ensures Models.WellFormed(db.(books := BooksRouter.CreateBook(db.books, input).store)) <==>
      input.publisherId in db.publishers.rows
  {
    var c := BooksRouter.CreateBook(db.books, input);
    assert c.store.rows[c.body.value.id].publisherId == Some(input.publisherId);
  }

  /** A PUT on an existing book keeps the invariants exactly when the new
      publisher exists. */
  lemma UpdateBookKeepsInvariantsIff(db: Models.Library, id: int, input: Schemas.BookCreate)
    requires Models.WellFormed(db) && id in db.books.rows
    ensures Models.WellFormed(db.(books := BooksRouter.UpdateBook(db.books, id, input).store)) <==>
      input.publisherId in db.publishers.rows
  {
    var u := BooksRouter.UpdateBook(db.books, id, input);
    assert u.store.rows[id].publisherId == Some(input.publisherId);
  }
  /** A PUT repeated with the same input changes nothing more, for all three entities. */
  lemma PutsAreIdempotent(db: Models.Library, id: int,
                          p: Schemas.PublisherCreate, a: Schemas.AuthorCreate, b: Schemas.BookCreate)
    ensures var once := PublishersRouter.UpdatePublisher(db.publishers, id, p);
      PublishersRouter.UpdatePublisher(once.store, id, p) == once
    ensures var once := AuthorsRouter.UpdateAuthor(db.authors, id, a);
      AuthorsRouter.UpdateAuthor(once.store, id, a) == once
    ensures var once := BooksRouter.UpdateBook(db.books, id, b);
      BooksRouter.UpdateBook(once.store, id, b) == once
  {
    Crud.ModifyIdempotent(db.publishers, id, PublishersRouter.Table, q => PublishersRouter.Replace(q, p));
    Crud.ModifyIdempotent(db.authors, id, AuthorsRouter.Table, q => AuthorsRouter.Replace(q, a));
    Crud.ModifyIdempotent(db.books, id, BooksRouter.Table, (q: Models.Book) => BooksRouter.FromInput(q.id, b));
  }

  /** How a book write ends once committed: the row written, the 404 raised before
      any write, or the database refusing the commit because `publisher_id` names no
      publisher (the foreign key of `books.publisher_id`), which rolls the
      transaction back and reaches the client as a server error. The rollback
      does not give back an id the failed insert drew from the book sequence. */
  datatype BookWrite = Written(book: Schemas.BookOut) | WriteNotFound(error: Dependencies.HttpException) | ForeignKeyViolation

  /** `create_book` through to its commit: the insert draws the next id whether or
      not the commit then succeeds. */
  function CreateBook(db: Models.Library, input: Schemas.BookCreate): (r: (Models.Library, BookWrite))
    ensures !r.1.WriteNotFound?
    ensures r.1.ForeignKeyViolation? <==> input.publisherId !in db.publishers.rows
    ensures r.0.books.next == BooksRouter.CreateBook(db.books, input).store.next
    ensures r.1.ForeignKeyViolation? ==>
      && r.0.books.rows == db.books.rows
      && r.0.publishers == db.publishers && r.0.authors == db.authors && r.0.links == db.links
    ensures r.1.Written? ==>
      var reply := BooksRouter.CreateBook(db.books, input);
      r.1.book == Schemas.ToBookOut(reply.body.value) && r.0 == db.(books := reply.store)
    ensures r.1.Written? ==>
      r.1.book.id in r.0.books.rows && r.1.book == Schemas.ToBookOut(r.0.books.rows[r.1.book.id])
  {
    var reply := BooksRouter.CreateBook(db.books, input);
    if input.publisherId in db.publishers.rows then (db.(books := reply.store), Written(Schemas.ToBookOut(reply.body.value)))
    else (db.(books := db.books.(next := reply.store.next)), ForeignKeyViolation)
  }

  /** `update_book` through to its commit: the 404 comes first, then the foreign key. */
  function UpdateBook(db: Models.Library, id: int, input: Schemas.BookCreate): (r: (Models.Library, BookWrite))
    ensures r.1.WriteNotFound? <==> id !in db.books.rows
    ensures r.1.WriteNotFound? ==> r.1.error == Dependencies.RaiseNotFound("book")
    ensures r.1.ForeignKeyViolation? <==> id in db.books.rows && input.publisherId !in db.publishers.rows
    ensures !r.1.Written? ==> r.0 == db
    ensures r.1.Written? ==>
      var reply := BooksRouter.UpdateBook(db.books, id, input);
      r.1.book == Schemas.ToBookOut(reply.body.value) && r.0 == db.(books := reply.store)
    ensures r.1.Written? ==> id in r.0.books.rows && r.1.book == Schemas.ToBookOut(r.0.books.rows[id])
  {
    var reply := BooksRouter.UpdateBook(db.books, id, input);
    match reply.body
    case Err(e) => (db, WriteNotFound(e))
    case Ok(b) =>
      if input.publisherId in db.publishers.rows then (db.(books := reply.store), Written(Schemas.ToBookOut(b)))
      else (db, ForeignKeyViolation)
  }

  /** With the foreign key enforced at commit, book writes keep the library's
      invariants whatever the input. */
  lemma BookWritesKeepInvariants(db: Models.Library, id: int, input: Schemas.BookCreate)
    requires Models.WellFormed(db)
    ensures Models.WellFormed(CreateBook(db, input).0)
    ensures Models.WellFormed(UpdateBook(db, id, input).0)
  {
    CreateBookKeepsInvariantsIff(db, input);
    if id in db.books.rows {
      UpdateBookKeepsInvariantsIff(db, id, input);
    }
  }
}

=== FILE: wrappers.dfy ===
/** Optional values and success/failure results shared by every module. */
module Wrappers {

  /** A value that may be absent: Python's `Optional[T]`, SQL's nullable column. */
  datatype Option<+T> = None | Some(value: T) {

    /** The carried value, or `default` when absent. */
    function GetOr(default: T): T {
      match this
      case Some(v) => v
      case None => default
    }
  }

  /** The outcome of an operation that either produces a value or raises an error. */
  datatype Result<+T, +E> = Ok(value: T) | Err(error: E)
}
